=== FILE: README.md ===
# ESP32 Orchestra: song registry, record types and MIDI converter core

This project models three parts of the ESP32 Orchestra: the conductor's song
registry, the record types it is built on, and the pure logic of the MIDI-to-header
converter. The registry has the hand-written event tables, their parts arrays with
`sizeof - 1` counts, `all_songs` and `get_song_by_id`. The record types are
`note_event_t`, `song_part_t` and `orchestra_song_t`. The converter logic covers
note pairing, distribution into parts, event emission, note names and the C
identifier sanitiser.

Modules:

- `Wrappers`: `Option`.
- `OrchestraTypes` (`orchestra_types.h`): the three records and the widths of
  their fields. It also has the `{NOTE_REST, 0, 0}` terminator, the `sizeof - 1`
  part initializer, and `ScanLength`, a walk to the sentinel that serves as an
  independent reading of `event_count`.
- `MidiSongs` (`midi_songs.h`): the nine shown event tables as constant
  sequences, the three parts arrays, `all_songs` and the lookup. `FindSong` is a
  reference definition of the lookup.
- `NotePairing` (`parse_midi_file`): the note-on/note-off state machine keyed on
  `(note, channel)`, folded over each track and then over all tracks.
- `Distribute` (`_distribute_notes_to_parts`, `sort_notes`): classification, the
  four groups, parts creation and the stable sort by start time.
- `Emit` (`_write_note_arrays`, `_write_parts_array`, `_write_song_struct`): the
  converter's event writer as written, a corrected writer, part lines and the
  song record.
- `NoteNames` (`_midi_to_note_name`, `_note_to_string`).
- `SafeName` (`_make_safe_name`), plus the cross-check against the Titanic entry of the
  registry.

Time is one abstract integer unit, called ms throughout. The parts of "Thailand"
and of the Titanic theme, and the values of the `SONG_xxx` ids, are defined in
headers that are not part of this model. They are parameters, and the registry
lemmas hold for every choice of them. Each id is stored in the `uint8_t`
`song_id` field, so the registry keeps its low byte (`OrchestraTypes.Byte`).

## Model

| member | source | states |
|---|---|---|
| OrchestraTypes.Byte | ESP32_Orchestra_IDF/conductor/main/orchestra_types.h:23-25 | Storing a value in a `uint8_t` field gives a byte congruent to it modulo 256, so a value that already fits is unchanged and a larger one wraps. |
| OrchestraTypes.ScanOfTerminated | ESP32_Orchestra_IDF/conductor/main/orchestra_types.h:14-18 | Walking a terminated array up to its first `{NOTE_REST, 0, 0}` counts every element except the final sentinel. |
| OrchestraTypes.MakePartValid | ESP32_Orchestra_IDF/conductor/main/midi_songs.h:180-183 | A part built with `sizeof(a)/sizeof(note_event_t) - 1` from a terminated array of in-range events is valid. Its count fits `uint16_t`, equals the scan to the sentinel, and the name is kept. |
| OrchestraTypes.CountMatchesSentinel | ESP32_Orchestra_IDF/conductor/main/orchestra_types.h:14-18 | In a valid part, `event_count` indexes the terminator, every earlier event differs from it, and a scan to the sentinel finds `event_count` events. |
| MidiSongs.TwinkleMelodyWellFormed | ESP32_Orchestra_IDF/conductor/main/midi_songs.h:11-60 | `twinkle_melody` has 43 elements. It ends with the terminator and has it nowhere else, every field fits its C width, and every zero-length event is a rest. |
| MidiSongs.TwinkleHarmonyWellFormed | ESP32_Orchestra_IDF/conductor/main/midi_songs.h:63-112 | Same for `twinkle_harmony` (43 elements). |
| MidiSongs.TwinkleBassWellFormed | ESP32_Orchestra_IDF/conductor/main/midi_songs.h:115-146 | Same for `twinkle_bass` (25 elements). |
| MidiSongs.TwinkleRhythmWellFormed | ESP32_Orchestra_IDF/conductor/main/midi_songs.h:149-176 | Same for `twinkle_rhythm` (43 elements), whose interior rests are `{NOTE_REST, 0, 200}`. |
| MidiSongs.BirthdayMelodyWellFormed | ESP32_Orchestra_IDF/conductor/main/midi_songs.h:191-222 | Same for `birthday_melody` (27 elements), which opens with the pick-up rest. |
| MidiSongs.BirthdayHarmonyWellFormed | ESP32_Orchestra_IDF/conductor/main/midi_songs.h:225-256 | Same for `birthday_harmony` (27 elements). |
| MidiSongs.BirthdayBassWellFormed | ESP32_Orchestra_IDF/conductor/main/midi_songs.h:259-288 | Same for `birthday_bass` (25 elements). |
| MidiSongs.MaryMelodyWellFormed | ESP32_Orchestra_IDF/conductor/main/midi_songs.h:302-331 | Same for `mary_melody` (26 elements). |
| MidiSongs.MaryHarmonyWellFormed | ESP32_Orchestra_IDF/conductor/main/midi_songs.h:334-363 | Same for `mary_harmony` (26 elements). |
| MidiSongs.ShownPartsArrayOf | ESP32_Orchestra_IDF/conductor/main/midi_songs.h:179-184 | A parts array built from well-formed tables with the `sizeof - 1` initializer has only valid parts. In each, the count equals the scan to the sentinel and zero-length events are rests. |
| MidiSongs.TwinklePartsValid | ESP32_Orchestra_IDF/conductor/main/midi_songs.h:179-184 | `twinkle_parts` holds 4 parts, matching the `part_count` of 4, and each is valid with the count its sentinel gives. |
| MidiSongs.BirthdayPartsValid | ESP32_Orchestra_IDF/conductor/main/midi_songs.h:291-295 | `birthday_parts` holds 3 parts, matching `part_count` 3, all valid. |
| MidiSongs.MaryPartsValid | ESP32_Orchestra_IDF/conductor/main/midi_songs.h:366-369 | `mary_parts` holds 2 parts, matching `part_count` 2, all valid. |
| MidiSongs.InteriorRestsHaveDelay | ESP32_Orchestra_IDF/conductor/main/midi_songs.h:150-156 | In a terminated table whose zero-length events are rests, every zero-length event before the end is a rest with a nonzero delay, so it cannot be taken for the terminator. |
| MidiSongs.AllSongs | ESP32_Orchestra_IDF/conductor/main/midi_songs.h:379-415 | `all_songs` has `TOTAL_SONGS` = 5 entries. Every id, tempo and `part_count` is a byte, and for the three shown songs `part_count` is the length of the parts array. |
| MidiSongs.RegistryValid | ESP32_Orchestra_IDF/conductor/main/midi_songs.h:379-415 | `all_songs` has 5 entries. Whatever the ids, and given valid parts for the two songs defined elsewhere, every entry is valid: the id, tempo and `part_count` fit a byte and `part_count` equals the number of parts. |
| MidiSongs.FirstMatchFrom | ESP32_Orchestra_IDF/conductor/main/midi_songs.h:421-425 | The index found is the first one at or after the start whose id matches. None is returned exactly when no such index exists. |
| MidiSongs.FindSong | ESP32_Orchestra_IDF/conductor/main/midi_songs.h:417-426 | The result is absent exactly when no entry has the id; otherwise it is an entry of the table carrying the id. |
| MidiSongs.GetSongById | ESP32_Orchestra_IDF/conductor/main/midi_songs.h:420-427 | The loop returns NULL exactly when no entry among the `TOTAL_SONGS` has the id. Otherwise it returns the entry at the smallest index with that id, which agrees with `FindSong`. |
| MidiSongs.LookupShownSongs | ESP32_Orchestra_IDF/conductor/main/midi_songs.h:379-424 | `TOTAL_SONGS` is 5. Looking up the low byte of each of the first three titles' ids returns its own entry, with its name, unless an earlier entry shares that byte. |
| MidiSongs.LookupUnregistered | ESP32_Orchestra_IDF/conductor/main/midi_songs.h:420-426 | An id that is not the low byte of any registry id gives NULL. |
| NotePairing.Step | ESP32_Orchestra_IDF/tools/midi_parser.py:77-99 | One message advances the clock by its delta. Only a `set_tempo` of 0 fails, and only `set_tempo` changes the tempo. A message that starts no note opens no key, and one that neither starts nor ends a note (`set_tempo` and the rest) leaves the open keys and the emitted notes unchanged. |
| NotePairing.ParseTracks | ESP32_Orchestra_IDF/tools/midi_parser.py:68-102 | An empty first track fails the parse: line 102 reads `absolute_time` before any message has set it, the exception is caught and the parse returns False. Every note of a successful parse has 0 <= start <= end. |
| NotePairing.EmptyTrackExamples | ESP32_Orchestra_IDF/tools/midi_parser.py:71-102 | A note pair after an empty first track gives no result. The same pair followed by an empty track gives the one note 60 from 0 to 10. |
| NotePairing.StepEmitsOnMatch | ESP32_Orchestra_IDF/tools/midi_parser.py:92-99 | A message emits a note exactly when it is a note-off, or a note-on with velocity 0, whose `(note, channel)` key is open. The note has the key's note and channel, the open start time and the current time, the key is closed, and earlier notes are kept. |
| NotePairing.UnmatchedEndIgnored | ESP32_Orchestra_IDF/tools/midi_parser.py:92-95 | An end message with no open key changes nothing but the clock. |
| NotePairing.NoteOnOverwrites | ESP32_Orchestra_IDF/tools/midi_parser.py:87-90 | A note-on with positive velocity (re)opens its key at the current time. Other keys and the emitted notes are untouched. |
| NotePairing.TempoMessage | ESP32_Orchestra_IDF/tools/midi_parser.py:81-84 | `set_tempo` sets the tempo to the floor of 60000000 / tempo. A tempo of 0 raises, which makes the parse fail. |
| NotePairing.StepWellTimed | ESP32_Orchestra_IDF/tools/midi_parser.py:77-99 | One message keeps the invariant: time is non-negative, open starts are not later than now, and emitted notes satisfy 0 <= start <= end. |
| NotePairing.RunTrackWellTimed | ESP32_Orchestra_IDF/tools/midi_parser.py:77-99 | A whole track keeps the invariant and only appends to the emitted notes. |
| NotePairing.RunTracksWellTimed | ESP32_Orchestra_IDF/tools/midi_parser.py:71-73 | Restarting time and open keys per track keeps the invariant over all tracks. |
| NotePairing.ParsedNotesWellTimed | ESP32_Orchestra_IDF/tools/midi_parser.py:68-99 | Every note a successful parse emits starts at a non-negative time and has a non-negative duration. |
| Distribute.Classify | ESP32_Orchestra_IDF/tools/midi_parser.py:135-143 | Each group, both directions: rhythm iff channel 9; otherwise melody iff note >= 72, harmony iff 60 <= note < 72, bass iff note < 60. |
| Distribute.NotesOfMembers | ESP32_Orchestra_IDF/tools/midi_parser.py:135-143 | A group's list holds exactly the input notes classified into that group. |
| Distribute.GroupsPartition | ESP32_Orchestra_IDF/tools/midi_parser.py:135-146 | The four groups, as multisets, add up to the input, so every note is in exactly one group as often as in the input. |
| Distribute.Insert | ESP32_Orchestra_IDF/tools/midi_parser.py:45-47 | Inserting into a list sorted by start time gives a sorted list with the element added and nothing else changed. |
| Distribute.SortByStart | ESP32_Orchestra_IDF/tools/midi_parser.py:45-47 | `sort_notes` returns a permutation of its input, sorted by start time. |
| Distribute.SortIsStable | ESP32_Orchestra_IDF/tools/midi_parser.py:45-47 | For every start time, the notes starting then appear in the sorted list in their input order. |
| Distribute.PartCount | ESP32_Orchestra_IDF/tools/midi_parser.py:121 | `range(min(max_parts, 6))` yields `max_parts` parts, capped at 6, and none for a negative `max_parts`. |
| Distribute.AssignedNotes | ESP32_Orchestra_IDF/tools/midi_parser.py:125-151 | Part i < 4 receives its group's notes, sorted by start time, as a permutation, and only notes of that group. Parts 4 and 5 stay empty, and every part is empty when there are no notes. |
| Distribute.DistributeNotes | ESP32_Orchestra_IDF/tools/midi_parser.py:116-151 | There are `min(max_parts, 6)` parts, numbered in order and named by the prefix of the name list. The first four hold their sorted groups and the rest are empty. |
| Distribute.InGroupPart | ESP32_Orchestra_IDF/tools/midi_parser.py:146-151 | Every note is in the part whose index is that of its group. |
| Distribute.OnlyGroupPart | ESP32_Orchestra_IDF/tools/midi_parser.py:146-151 | A note found in part i belongs to group i. |
| Distribute.NoteKeptIffPartExists | ESP32_Orchestra_IDF/tools/midi_parser.py:146-151 | A note reaches some part exactly when its group's part was created, so with fewer than four parts the later groups are dropped. |
| Emit.ConverterEvents | ESP32_Orchestra_IDF/tools/midi_parser.py:200-213 | One event per note, with the note's pitch and duration. The delay is `max(0, start - last_end)`, where `last_end` is 0 for the first note and the previous note's end afterwards, so it is never negative. |
| Emit.ConverterNoteArray | ESP32_Orchestra_IDF/tools/midi_parser.py:197-215 | The converter's array has one more element than the part has notes, and that last element is the terminator (alone for an empty part). |
| Emit.ConverterSelfConsistent | ESP32_Orchestra_IDF/tools/midi_parser.py:200-213 | For sorted, non-overlapping notes, the durations and delays of the earlier events plus the note's own delay sum to its start time. |
| Emit.ConverterOnsetIsPreviousEnd | ESP32_Orchestra_IDF/conductor/main/orchestra_types.h:10 | Read as the event type documents (`delay_ms` is the wait before the next note), the converter's array reaches note i when note i-1 ends, not at note i's start. |
| Emit.ConverterShiftsSecondNote | ESP32_Orchestra_IDF/tools/midi_parser.py:204 | For notes 0-400 and 500-900, the second event's delay is 100, and a player waiting after each note reaches the second note at 400 instead of 500. |
| Emit.ConverterPartCount | ESP32_Orchestra_IDF/tools/midi_parser.py:226-230 | For the converter's arrays, `sizeof - 1` equals the number of notes, and so does a scan to the sentinel. |
| Emit.GapAfterEvents | ESP32_Orchestra_IDF/conductor/main/orchestra_types.h:8-10 | The corrected writer: one event per note with its pitch and duration. Its delay is the silence up to the next note's start, and 0 for the last note. |
| Emit.NoteArray | ESP32_Orchestra_IDF/conductor/main/orchestra_types.h:7-11 | The corrected array: an optional pick-up rest, one event per note, and the terminator as its last element. |
| Emit.NoteArrayOnsets | ESP32_Orchestra_IDF/conductor/main/orchestra_types.h:10 | For sorted, non-overlapping notes, playing each event for its duration and then waiting its delay reaches every note exactly at its start time, with its own pitch and duration. |
| Emit.NoteArrayEnds | ESP32_Orchestra_IDF/conductor/main/orchestra_types.h:10 | The corrected array reaches its terminator exactly when the last note ends. |
| Emit.EmitPart | ESP32_Orchestra_IDF/tools/midi_parser.py:226-230 | The part line over the converter's own array keeps the part's name, and its `sizeof - 1` count is the number of notes. |
| Emit.ConverterNoteArrayValid | ESP32_Orchestra_IDF/tools/midi_parser.py:197-215 | When each note's pitch, duration and gap before it fit their C fields, each note's `NOTE_xxx` name is a single token (note 0 or at least 12), and no note is written as `{NOTE_REST, 0, 0}`, the converter's array is terminated and every event fits. |
| Emit.EmitPartValid | ESP32_Orchestra_IDF/tools/midi_parser.py:219-230 | The part line of a writable part is a valid part whose count equals the scan to the sentinel. Notes may overlap and the song may be of any length. |
| Emit.WritableChordAndLateNote | ESP32_Orchestra_IDF/tools/midi_parser.py:200-213 | A chord followed by a note from 60000 to 70000 ms is writable although the notes overlap and end past 65535. |
| Emit.GenerateSong | ESP32_Orchestra_IDF/tools/midi_parser.py:234-248 | The song record keeps the name. Its id is the low byte of the name hash (`& 0xFF`) and its tempo the low byte of the tempo. It has one part per orchestral part: its events are exactly the array the converter writes for that part's notes, with the part's name and the note count. `part_count` is the low byte of the number of parts, and equals it below 256. |
| Emit.GenerateSongValid | ESP32_Orchestra_IDF/tools/midi_parser.py:234-248 | For any hash and tempo, the song the converter writes from writable parts, fewer than 256 of them, satisfies every invariant the firmware relies on. |
| Emit.NoteArrayEventsValid | ESP32_Orchestra_IDF/conductor/main/orchestra_types.h:7-11 | For notes whose fields fit (first start, each pitch, duration and gap after it) and that are never written as the terminator, every event of the corrected array fits its C fields and only the last is the terminator. |
| Emit.CorrectedEmitPart | ESP32_Orchestra_IDF/conductor/main/orchestra_types.h:14-18 | The corrected part line keeps the part's name, and its count is the pick-up rest, if any, plus one event per note. |
| Emit.CorrectedPartOnsets | ESP32_Orchestra_IDF/conductor/main/orchestra_types.h:10 | In the corrected part line of sequential notes, every note's event has its pitch and is reached exactly at the note's start time. |
| Emit.CorrectedEmitPartValid | ESP32_Orchestra_IDF/conductor/main/orchestra_types.h:14-18 | The corrected part line of writable notes with fewer than 65536 events is a valid part whose count equals the scan to the sentinel. |
| Emit.CorrectedGenerateSong | ESP32_Orchestra_IDF/tools/midi_parser.py:234-248 | The corrected song keeps the name and stores the hash, tempo and part count as bytes as the converter does. Each part's events are exactly the corrected array of that part's notes, with its name. |
| Emit.CorrectedGenerateSongValid | ESP32_Orchestra_IDF/tools/midi_parser.py:234-248 | The corrected song of writable parts, fewer than 256 of them, satisfies every invariant the firmware relies on. |
| Emit.DistributedPartCountFits | ESP32_Orchestra_IDF/tools/midi_parser.py:246 | The distribution yields at most six parts, so the stored `part_count` is the number of parts, never truncated. |
| NoteNames.MidiToPitch | ESP32_Orchestra_IDF/tools/midi_parser.py:273-278 | Note 0 and only note 0 is the rest. Every other number gives a pitch class in 0..11 with the floor-division octave, and the pitch stands for the same MIDI number. |
| NoteNames.PitchRoundTrip | ESP32_Orchestra_IDF/tools/midi_parser.py:276-278 | Every valid pitch is recovered from its own MIDI number, so numbers and valid pitches correspond one to one. |
| NoteNames.MidiToNoteName | ESP32_Orchestra_IDF/tools/midi_parser.py:271-280 | `_midi_to_note_name` gives `NOTE_REST` exactly for note 0. Every result starts with `NOTE_`, and it names the pitch the number denotes. |
| NoteNames.NoteToString | ESP32_Orchestra_IDF/tools/midi_parser.py:282-291 | `_note_to_string` gives `REST` exactly for note 0. |
| NoteNames.IntToStringInjective | ESP32_Orchestra_IDF/tools/midi_parser.py:280 | The decimal text of the octave, with a leading `-` for negative octaves, determines the octave. |
| NoteNames.NoteNameInjective | ESP32_Orchestra_IDF/tools/midi_parser.py:271-280 | Two MIDI numbers get the same `NOTE_xxx` name exactly when they are equal. |
| NoteNames.NoteNameMinus | ESP32_Orchestra_IDF/tools/midi_parser.py:271-280 | The `NOTE_xxx` name carries a minus sign exactly for the numbers other than 0 below 12, whose floor-division octave is -1 or lower. |
| NoteNames.NoteStringInjective | ESP32_Orchestra_IDF/tools/midi_parser.py:282-291 | Two MIDI numbers get the same readable name exactly when they are equal. |
| NoteNames.NamesAgree | ESP32_Orchestra_IDF/tools/midi_parser.py:282-291 | The identifier name is `NOTE_` followed by the readable name with every `#` spelled `S`, so the two agree on pitch class and octave. |
| NoteNames.NoteNameExamples | ESP32_Orchestra_IDF/tools/midi_parser.py:271-291 | 60 is `NOTE_C4`/`C4`, 72 is `NOTE_C5`/`C5`, 0 is `NOTE_REST`/`REST`. |
| NoteNames.SharpNameExamples | ESP32_Orchestra_IDF/tools/midi_parser.py:287-289 | 61 is `NOTE_CS4`/`C#4`, and note 1 gets octave -1 from floor division (`NOTE_CS-1`). |
| SafeName.Sanitize | ESP32_Orchestra_IDF/tools/midi_parser.py:263-268 | The character loop gives only alphanumerics and `_` and is no longer than its input. |
| SafeName.Strip | ESP32_Orchestra_IDF/tools/midi_parser.py:269 | `strip("_")` returns the infix of its input left after cutting a run of `_` from each end, and the result neither starts nor ends with `_`. |
| SafeName.StripIdent | ESP32_Orchestra_IDF/tools/midi_parser.py:269 | Stripping `_` from a string of alphanumerics and `_` leaves such a string. |
| SafeName.StripLeading | ESP32_Orchestra_IDF/tools/midi_parser.py:269 | `lstrip("_")` removes a prefix made only of `_`, after which the result does not start with `_`. |
| SafeName.StripTrailing | ESP32_Orchestra_IDF/tools/midi_parser.py:269 | `rstrip("_")` removes a suffix made only of `_`, after which the result does not end with `_`. |
| SafeName.MakeSafeName | ESP32_Orchestra_IDF/tools/midi_parser.py:261-269 | The safe name holds only alphanumerics and `_`, neither starts nor ends with `_`, and is no longer than the input. |
| SafeName.StripIdentity | ESP32_Orchestra_IDF/tools/midi_parser.py:269 | A string with no `_` at either end is its own strip. |
| SafeName.SafeNameIdempotent | ESP32_Orchestra_IDF/tools/midi_parser.py:261-269 | Applying `_make_safe_name` twice gives the same as applying it once. |
| SafeName.SafeNameKeepsAlnum | ESP32_Orchestra_IDF/tools/midi_parser.py:261-269 | Removing the `_` from the safe name leaves exactly the alphanumerics of the input, in order, so only underscores are added. |
| SafeName.SanitizeConcat | ESP32_Orchestra_IDF/tools/midi_parser.py:264-268 | The character loop works character by character: sanitising a concatenation concatenates the sanitised pieces. |
| SafeName.SafeTitle | ESP32_Orchestra_IDF/conductor/main/midi_songs.h:409-413 | The Titanic title maps to `Movie_Themes___Titanic___My_Heart_Will_Go_On_Techno_Mix`. |
| SafeName.TitanicSafeName | ESP32_Orchestra_IDF/conductor/main/midi_songs.h:408-414 | The registry's fifth entry carries the Titanic title. Its safe name plus `_parts` is exactly the parts array name the registry references. |

## Left out

- MIDI file loading and `tick2second`: the parser converts ticks with a fixed tempo of 500000 through a library call. Message delta times here are abstract non-negative integers already in ms.
- Float-to-millisecond truncation in `duration_ms` and `start_time_ms`: times are given integers, so `start + duration` is exactly the note's end.
- `total_duration`: it only feeds the header comment and the log.
- The generated song id `hash(song_name) & 0xFF`: Python's string hash is randomised per process, so `GenerateSong` takes the id as a parameter.
- The text of the generated header (guards, comments, `f.write`, `.upper()` of the `SONG_` macro and the lower-cased array names), printing, `main` and file I/O errors.
- Exceptions other than a `set_tempo` of 0 and an empty first track: `parse_midi_file` returns False on any exception. The others come from file loading and from library calls that are not part of this model.
- `self.parts` accumulating across repeated `_distribute_notes_to_parts` calls: the converter calls it once per object, and the model builds the list once.
- Emit.ConverterEvents: records each note as the pitch it denotes. For notes 1..11 the converter writes a name such as `NOTE_CS-1`, which C reads as `NOTE_CS - 1`, not as that pitch; `NoteNames.NoteNameMinus` states when this happens, and the validity lemmas exclude these notes through `ConverterWritable`.
- The numeric values of the `NOTE_xxx` constants (`orchestra_common.h` is not part of this model): a pitch is a pitch class and octave, and `PitchCode` gives its MIDI number.
- `str.isalnum` on non-ASCII letters and digits: `SafeName.IsAlnum` accepts ASCII only.
- The contents of `Thailand.h` and `titanic_orchestra.h`: their parts arrays are parameters whose validity `MidiSongs.RegistryValid` requires rather than proves.
- Playback, timers and tasks of the firmware.
- MidiSongs.LookupShownSongs: states the lookup for the first three entries only. The last two are covered by `GetSongById`'s general contract.
- Emit.GenerateSongValid: requires writable parts and fewer than 256 of them. A writable part has fewer than 65536 notes, each note's pitch, duration and gap before it must fit its field, no note may lie in 1..11, and no note may be a zero-length note 0 with no gap before it. The converter writes out-of-range values unchecked, and such a note would be written as a second terminator.
- Emit.EmitPart: the `uint16_t` fields (`duration_ms`, `delay_ms`, `event_count`) are kept as unbounded integers. C would store a value beyond 65535 modulo 65536; the model keeps it, `ValidEvent` and `ValidPart` reject it, and the validity lemmas require every such value in range. The same holds for `Emit.CorrectedEmitPart` and for the `uint8_t` `note` field.

## Findings

| source | as written | input that shows it | evidently intended | confidence | as-written member | corrected member |
|---|---|---|---|---|---|---|
| ESP32_Orchestra_IDF/tools/midi_parser.py:204 | `delay_ms` is the gap between the previous note's end and this note's start, written on this note | notes 0-400 and 500-900: the second event is written with delay 100. A player that plays a note and then waits its `delay_ms`, as `orchestra_types.h:10` documents ("delay before the next note"), reaches the second note at 400 instead of 500. | `delay_ms` is the silence after a note, up to the next one. The hand-written tables use this reading, with trailing gaps and a `{NOTE_REST, 0, 400}` pick-up. | medium; not executed | Emit.ConverterShiftsSecondNote | Emit.CorrectedPartOnsets |

=== FILE: distribute.dfy ===
/** `_distribute_notes_to_parts` and `OrchestralPart.sort_notes`: the parts are
    created from a fixed name list, the notes are split into four groups by
    channel and pitch, and each of the first four parts receives its group
    sorted by start time. */
module Distribute {

  import opened NotePairing

  datatype Group = Melody | Harmony | Bass | Rhythm

  /** The classification loop: channel 9 (MIDI channel 10, drums) is rhythm;
      otherwise C5 (72) and above is melody, C4..B4 harmony, below C4 bass. */
  function Classify(n: MidiNote): (g: Group)
    ensures g == Rhythm <==> n.channel == 9
    ensures g == Melody <==> n.channel != 9 && n.note >= 72
    ensures g == Harmony <==> n.channel != 9 && 60 <= n.note < 72
    ensures g == Bass <==> n.channel != 9 && n.note < 60
  {
    if n.channel == 9 then Rhythm
    else if n.note >= 72 then Melody
    else if n.note >= 60 then Harmony
    else Bass
  }

  /** `note_groups`: the order in which groups are handed to parts. */
  const Groups: seq<Group> := [Melody, Harmony, Bass, Rhythm]

  /** `part_names`. */
  const PartNames: seq<string> := ["Melody", "Harmony", "Bass", "Rhythm", "Percussion", "Effects"]

  /** `OrchestralPart`. */
  datatype OrchestralPart = OrchestralPart(partId: int, name: string, notes: seq<MidiNote>)

  /** The notes of one group, in the order the loop appends them. */
  function NotesOf(notes: seq<MidiNote>, g: Group): seq<MidiNote> {
    if |notes| == 0 then []
    else (if Classify(notes[0]) == g then [notes[0]] else []) + NotesOf(notes[1..], g)
  }

  /** A group holds exactly the notes classified into it. */
  lemma {:induction false} NotesOfMembers(notes: seq<MidiNote>, g: Group)
    ensures forall n :: n in NotesOf(notes, g) <==> n in notes && Classify(n) == g
  {
    if |notes| > 0 {
      NotesOfMembers(notes[1..], g);
      assert notes == [notes[0]] + notes[1..];
    }
  }

  /** One step of the classification loop, seen as multisets. */
  lemma NotesOfStep(notes: seq<MidiNote>, g: Group)
    requires |notes| > 0
    ensures multiset(NotesOf(notes, g))
         == (if Classify(notes[0]) == g then multiset{notes[0]} else multiset{}) + multiset(NotesOf(notes[1..], g))
  {
  }

  /** Adding one element to a sum of four multisets adds it to one of them. */
  lemma AddToOnePart<T>(x: multiset<T>, m: multiset<T>, h: multiset<T>, b: multiset<T>, r: multiset<T>)
    ensures x + (m + h + b + r) == (x + m) + h + b + r
    ensures x + (m + h + b + r) == m + (x + h) + b + r
    ensures x + (m + h + b + r) == m + h + (x + b) + r
    ensures x + (m + h + b + r) == m + h + b + (x + r)
  {
  }

  lemma MultisetCons(s: seq<MidiNote>)
    requires |s| > 0
    ensures multiset(s) == multiset{s[0]} + multiset(s[1..])
  {
    assert s == [s[0]] + s[1..];
  }

  /** The four groups split the notes: together they hold every note exactly
      as often as the input does. */
  lemma {:induction false} GroupsPartition(notes: seq<MidiNote>)
    ensures multiset(notes) == multiset(NotesOf(notes, Melody)) + multiset(NotesOf(notes, Harmony))
                             + multiset(NotesOf(notes, Bass)) + multiset(NotesOf(notes, Rhythm))
  {
    if |notes| > 0 {
      var x := multiset{notes[0]};
      var m, h := multiset(NotesOf(notes[1..], Melody)), multiset(NotesOf(notes[1..], Harmony));
      var b, r := multiset(NotesOf(notes[1..], Bass)), multiset(NotesOf(notes[1..], Rhythm));
      GroupsPartition(notes[1..]);
      MultisetCons(notes);
      NotesOfStep(notes, Melody);
      NotesOfStep(notes, Harmony);
      NotesOfStep(notes, Bass);
      NotesOfStep(notes, Rhythm);
      AddToOnePart(x, m, h, b, r);
    }
  }

  predicate SortedByStart(s: seq<MidiNote>) {
    forall i, j | 0 <= i < j < |s| :: s[i].startMs <= s[j].startMs
  }

  /** Putting an element no later than every element in front of a sorted
      sequence keeps it sorted. */
  lemma ConsSorted(a: MidiNote, s: seq<MidiNote>)
    requires SortedByStart(s)
    requires forall j | 0 <= j < |s| :: a.startMs <= s[j].startMs
    ensures SortedByStart([a] + s)
  {
  }

  /** Inserts `x` before the first element that does not start earlier. */
  function Insert(x: MidiNote, t: seq<MidiNote>): (r: seq<MidiNote>)
    requires SortedByStart(t)
    ensures multiset(r) == multiset(t) + multiset{x}
    ensures |r| == |t| + 1
    ensures r[0] == x || (|t| > 0 && r[0] == t[0])
    ensures SortedByStart(r)
  {
    if |t| == 0 || x.startMs <= t[0].startMs then
      ConsSorted(x, t);
      [x] + t
    else
      var r' := Insert(x, t[1..]);
      MultisetCons(t);
      ConsSorted(t[0], r');
      [t[0]] + r'
  }

  /** `sort_notes`: Python's stable sort by start time, as an insertion sort. */
  function SortByStart(s: seq<MidiNote>): (r: seq<MidiNote>)
    ensures SortedByStart(r)
    ensures multiset(r) == multiset(s)
  {
    if |s| == 0 then []
    else
      assert s == [s[0]] + s[1..];
      Insert(s[0], SortByStart(s[1..]))
  }

  /** The notes starting at time `k`, in order. */
  function StartingAt(s: seq<MidiNote>, k: int): seq<MidiNote> {
    if |s| == 0 then [] else (if s[0].startMs == k then [s[0]] else []) + StartingAt(s[1..], k)
  }

  lemma StartingAtCons(a: MidiNote, s: seq<MidiNote>, k: int)
    ensures StartingAt([a] + s, k) == (if a.startMs == k then [a] else []) + StartingAt(s, k)
  {
    assert ([a] + s)[1..] == s;
  }

  lemma {:induction false} InsertStartingAt(x: MidiNote, t: seq<MidiNote>, k: int)
    requires SortedByStart(t)
    ensures StartingAt(Insert(x, t), k) == (if x.startMs == k then [x] else []) + StartingAt(t, k)
    decreases |t|
  {
    if |t| == 0 || x.startMs <= t[0].startMs {
      StartingAtCons(x, t, k);
    } else {
      var rest := Insert(x, t[1..]);
      var tail := StartingAt(t[1..], k);
      assert Insert(x, t) == [t[0]] + rest;
      assert StartingAt(t, k) == (if t[0].startMs == k then [t[0]] else []) + tail;
      InsertStartingAt(x, t[1..], k);
      StartingAtCons(t[0], rest, k);
      if x.startMs == k {
        assert t[0].startMs != k;
        assert StartingAt(rest, k) == [x] + tail;
        assert StartingAt(Insert(x, t), k) == [x] + tail;
        assert StartingAt(t, k) == tail;
      } else {
        assert StartingAt(rest, k) == tail;
        assert StartingAt(Insert(x, t), k) == StartingAt(t, k);
      }
    }
  }

  /** The sort is stable: notes with the same start time keep their input order. */
  lemma {:induction false} SortIsStable(s: seq<MidiNote>, k: int)
    ensures StartingAt(SortByStart(s), k) == StartingAt(s, k)
  {
    if |s| > 0 {
      SortIsStable(s[1..], k);
      InsertStartingAt(s[0], SortByStart(s[1..]), k);
    }
  }

  /** `range(min(max_parts, 6))`: no parts for a negative `max_parts`. */
  function PartCount(maxParts: int): (c: nat)
    ensures c <= |PartNames|
    ensures c == maxParts || (maxParts > 6 && c == 6) || (maxParts < 0 && c == 0)
  {
    if maxParts < 0 then 0 else if maxParts < 6 then maxParts else 6
  }

  /** The notes part `i` ends up with: nothing when there are no notes at all
      (the early return) or when `i` has no group, else its group sorted. */
  function AssignedNotes(notes: seq<MidiNote>, i: nat): (r: seq<MidiNote>)
    ensures i < |Groups| ==>
      && SortedByStart(r)
      && multiset(r) == multiset(NotesOf(notes, Groups[i]))
      && (forall n | n in r :: Classify(n) == Groups[i])
    ensures i >= |Groups| ==> r == []
  {
    if |notes| == 0 || i >= |Groups| then []
    else
      var r := SortByStart(NotesOf(notes, Groups[i]));
      NotesOfMembers(notes, Groups[i]);
      assert forall n | n in r :: n in multiset(NotesOf(notes, Groups[i]));
      r
  }

  /** `_distribute_notes_to_parts`. */
  function DistributeNotes(notes: seq<MidiNote>, maxParts: int): (r: seq<OrchestralPart>)
    ensures |r| == PartCount(maxParts)
    ensures forall i | 0 <= i < |r| :: r[i].partId == i && r[i].name == PartNames[i]
    ensures forall i | 0 <= i < |r| && i < |Groups| ::
      && SortedByStart(r[i].notes)
      && multiset(r[i].notes) == multiset(NotesOf(notes, Groups[i]))
      && (forall n | n in r[i].notes :: Classify(n) == Groups[i])
    ensures forall i | |Groups| <= i < |r| :: r[i].notes == []
  {
    var count := PartCount(maxParts);
    seq(count, i requires 0 <= i < count => OrchestralPart(i, PartNames[i], AssignedNotes(notes, i)))
  }

  function GroupIndex(g: Group): nat {
    match g
    case Melody => 0
    case Harmony => 1
    case Bass => 2
    case Rhythm => 3
  }

  /** Every note lands in the part whose index is that of its group. */
  lemma {:induction false} InGroupPart(notes: seq<MidiNote>, n: MidiNote)
    requires n in notes
    ensures n in AssignedNotes(notes, GroupIndex(Classify(n)))
  {
    var g := Classify(n);
    var i := GroupIndex(g);
    assert Groups[i] == g;
    NotesOfMembers(notes, g);
    assert n in multiset(NotesOf(notes, g));
    assert n in multiset(AssignedNotes(notes, i));
  }

  /** No part holds a note of another group. */
  lemma {:induction false} OnlyGroupPart(notes: seq<MidiNote>, i: nat, n: MidiNote)
    requires n in AssignedNotes(notes, i)
    ensures i == GroupIndex(Classify(n))
  {
    assert i < |Groups|;
    assert Classify(n) == Groups[i];
  }

  /** A note reaches some part exactly when its group's part exists: with
      fewer than four parts the later groups are silently dropped. */
  lemma {:induction false} NoteKeptIffPartExists(notes: seq<MidiNote>, maxParts: int, n: MidiNote)
    requires n in notes
    ensures var r := DistributeNotes(notes, maxParts);
      (exists i | 0 <= i < |r| :: n in r[i].notes) <==> GroupIndex(Classify(n)) < |r|
  {
    var r := DistributeNotes(notes, maxParts);
    var gi := GroupIndex(Classify(n));
    if gi < |r| {
      InGroupPart(notes, n);
      assert n in r[gi].notes;
    }
    forall i | 0 <= i < |r| && n in r[i].notes
      ensures gi < |r|
    {
      OnlyGroupPart(notes, i, n);
    }
  }
}

=== FILE: emit.dfy ===
/** The part of the MIDI converter that turns each part's notes into a
    `note_event_t` array, the parts into `song_part_t` initializers and the
    whole into an `orchestra_song_t`. Two event writers are modelled: the one
    the converter has (the delay is the silence before a note) and the one the
    note-event type describes (the delay is the silence after a note). */
module Emit {

  import opened OrchestraTypes
  import opened NotePairing
  import opened NoteNames
  import opened Distribute

  /** `max(0, x)`. */
  function Max0(x: int): nat {
    if x < 0 then 0 else x
  }

  /** Notes that follow one another without overlap, none before time 0. */
  predicate Sequential(notes: seq<MidiNote>) {
    && (forall i | 0 <= i < |notes| :: 0 <= notes[i].startMs <= notes[i].endMs)
    && (forall i | 0 <= i < |notes| - 1 :: notes[i].endMs <= notes[i + 1].startMs)
  }

  /** The time at which a player reaches event `k` when every event sounds for
      its duration and then waits its delay, the reading the note-event type
      gives `delay_ms`. */
  function Elapsed(events: seq<NoteEvent>, k: nat): int
    requires k <= |events|
  {
    if k == 0 then 0
    else Elapsed(events, k - 1) + events[k - 1].durationMs + events[k - 1].delayMs
  }

  // ---------------------------------------------------------------------
  // The converter as written: delay = gap between the previous end and this start
  // ---------------------------------------------------------------------

  /** The loop over a part's notes, `lastEnd` being `last_end_time` on entry. */
  function ConverterEvents(notes: seq<MidiNote>, lastEnd: int): (r: seq<NoteEvent>)
    ensures |r| == |notes|
    ensures forall i | 0 <= i < |notes| ::
      && r[i].note == MidiToPitch(notes[i].note)
      && r[i].durationMs == DurationMs(notes[i])
      && r[i].delayMs == Max0(notes[i].startMs - (if i == 0 then lastEnd else notes[i - 1].endMs))
  {
    if |notes| == 0 then []
    else
      var n := notes[0];
      [NoteEvent(MidiToPitch(n.note), DurationMs(n), Max0(n.startMs - lastEnd))]
        + ConverterEvents(notes[1..], n.startMs + DurationMs(n))
  }

  /** One part's array as the converter writes it: the lone terminator for an
      empty part, else one event per note and then the terminator. */
  function ConverterNoteArray(notes: seq<MidiNote>): (r: seq<NoteEvent>)
    ensures |r| == |notes| + 1
    ensures r[|notes|] == Terminator
  {
    if |notes| == 0 then [Terminator] else ConverterEvents(notes, 0) + [Terminator]
  }

  /** Under the event type's reading, the converter's array reaches each note
      when the previous note ends, not when the note starts. */
  lemma {:induction false} ConverterOnsetIsPreviousEnd(notes: seq<MidiNote>, i: nat)
    requires Sequential(notes)
    requires i <= |notes|
    ensures Elapsed(ConverterNoteArray(notes), i) == if i == 0 then 0 else notes[i - 1].endMs
  {
    if i > 0 {
      var j := i - 1;
      var r := ConverterNoteArray(notes);
      var e := ConverterEvents(notes, 0);
      var prev := if j == 0 then 0 else notes[j - 1].endMs;
      ConverterOnsetIsPreviousEnd(notes, j);
      assert r == e + [Terminator];
      assert r[j] == e[j];
      assert prev <= notes[j].startMs;
      assert e[j].delayMs == notes[j].startMs - prev;
      assert Elapsed(r, i) == prev + r[j].durationMs + r[j].delayMs;
    }
  }

  /** Read the converter's way (wait the delay, then play), every note of a
      sequential part starts at its own start time. */
  lemma {:induction false} ConverterSelfConsistent(notes: seq<MidiNote>, i: nat)
    requires Sequential(notes)
    requires i < |notes|
    ensures Elapsed(ConverterNoteArray(notes), i) + ConverterNoteArray(notes)[i].delayMs == notes[i].startMs
  {
    var r := ConverterNoteArray(notes);
    var e := ConverterEvents(notes, 0);
    var prev := if i == 0 then 0 else notes[i - 1].endMs;
    ConverterOnsetIsPreviousEnd(notes, i);
    assert r == e + [Terminator];
    assert r[i] == e[i];
    assert prev <= notes[i].startMs;
    assert e[i].delayMs == notes[i].startMs - prev;
  }

  /** Two notes, 0-400 and 500-900: the converter writes a 100 ms delay on the
      second note, so a player that waits after each note plays it at 400. */
  lemma ConverterShiftsSecondNote()
    ensures var notes := [MidiNote(60, 0, 400, 100, 0), MidiNote(60, 500, 900, 100, 0)];
      && Sequential(notes)
      && ConverterNoteArray(notes)[1].delayMs == 100
      && Elapsed(ConverterNoteArray(notes), 1) == 400
      && Elapsed(ConverterNoteArray(notes), 1) != notes[1].startMs
  {
    var notes := [MidiNote(60, 0, 400, 100, 0), MidiNote(60, 500, 900, 100, 0)];
    ConverterOnsetIsPreviousEnd(notes, 1);
    assert ConverterNoteArray(notes)[1] == ConverterEvents(notes, 0)[1];
  }

  // ---------------------------------------------------------------------
  // The writer the note-event type describes: delay = gap after the note
  // ---------------------------------------------------------------------

  /** One event per note, each carrying the silence up to the next note; the
      last note carries none. */
  function GapAfterEvents(notes: seq<MidiNote>): (r: seq<NoteEvent>)
    ensures |r| == |notes|
    ensures forall i | 0 <= i < |notes| ::
      && r[i].note == MidiToPitch(notes[i].note)
      && r[i].durationMs == DurationMs(notes[i])
    ensures forall i | 0 <= i < |notes| - 1 :: r[i].delayMs == Max0(notes[i + 1].startMs - notes[i].endMs)
    ensures |notes| > 0 ==> r[|notes| - 1].delayMs == 0
  {
    if |notes| == 0 then []
    else if |notes| == 1 then [NoteEvent(MidiToPitch(notes[0].note), DurationMs(notes[0]), 0)]
    else
      var gap := Max0(notes[1].startMs - notes[0].endMs);
      var rest := GapAfterEvents(notes[1..]);
      assert rest[|notes| - 2].delayMs == 0;
      [NoteEvent(MidiToPitch(notes[0].note), DurationMs(notes[0]), gap)] + rest
  }

  /** A silent pick-up event covering the time before the first note, as the
      hand-written tables have. */
  function LeadIn(notes: seq<MidiNote>): seq<NoteEvent> {
    if |notes| > 0 && notes[0].startMs > 0 then [NoteEvent(Rest, 0, notes[0].startMs)] else []
  }

  /** Indexing into a sequence made of three pieces. */
  lemma Concat3Index<T>(a: seq<T>, b: seq<T>, c: seq<T>, k: nat)
    requires k < |a| + |b| + |c|
    ensures (a + b + c)[k] == if k < |a| then a[k] else if k < |a| + |b| then b[k - |a|] else c[k - |a| - |b|]
  {
  }

  /** One part's array: the pick-up rest if needed, the notes, the terminator. */
  function NoteArray(notes: seq<MidiNote>): (r: seq<NoteEvent>)
    ensures |r| == |LeadIn(notes)| + |notes| + 1
    ensures r[|r| - 1] == Terminator
  {
    LeadIn(notes) + GapAfterEvents(notes) + [Terminator]
  }

  /** Every note of a sequential part is reached exactly at its start time,
      with its own pitch and duration. */
  lemma {:induction false} NoteArrayOnsets(notes: seq<MidiNote>, i: nat)
    requires Sequential(notes)
    requires i < |notes|
    ensures var k := |LeadIn(notes)| + i;
      && NoteArray(notes)[k].note == MidiToPitch(notes[i].note)
      && NoteArray(notes)[k].durationMs == DurationMs(notes[i])
      && Elapsed(NoteArray(notes), k) == notes[i].startMs
  {
    var r := NoteArray(notes);
    var lead := LeadIn(notes);
    var g := GapAfterEvents(notes);
    var k := |lead| + i;
    Concat3Index(lead, g, [Terminator], k);
    assert r[k] == g[i];
    if i == 0 {
      if |lead| == 1 {
        Concat3Index(lead, g, [Terminator], 0);
        assert r[0] == NoteEvent(Rest, 0, notes[0].startMs);
        assert Elapsed(r, 1) == Elapsed(r, 0) + r[0].durationMs + r[0].delayMs;
      }
    } else {
      NoteArrayOnsets(notes, i - 1);
      Concat3Index(lead, g, [Terminator], k - 1);
      assert r[k - 1] == g[i - 1];
      assert g[i - 1].delayMs == notes[i].startMs - notes[i - 1].endMs;
      assert Elapsed(r, k) == Elapsed(r, k - 1) + r[k - 1].durationMs + r[k - 1].delayMs;
    }
  }

  /** The part is over exactly when its last note ends. */
  lemma {:induction false} NoteArrayEnds(notes: seq<MidiNote>)
    requires Sequential(notes)
    requires |notes| > 0
    ensures Elapsed(NoteArray(notes), |NoteArray(notes)| - 1) == notes[|notes| - 1].endMs
  {
    var r := NoteArray(notes);
    var last := |notes| - 1;
    var k := |LeadIn(notes)| + last;
    NoteArrayOnsets(notes, last);
    Concat3Index(LeadIn(notes), GapAfterEvents(notes), [Terminator], k);
    assert r[k] == GapAfterEvents(notes)[last];
    assert r[k].delayMs == 0;
    assert Elapsed(r, k + 1) == Elapsed(r, k) + r[k].durationMs + r[k].delayMs;
  }

  // ---------------------------------------------------------------------
  // Parts and the song, as the converter writes them
  // ---------------------------------------------------------------------

  /** The delay the converter writes on note `i`: `max(0, start - last_end)`. */
  function GapBefore(notes: seq<MidiNote>, i: nat): nat
    requires i < |notes|
  {
    Max0(notes[i].startMs - (if i == 0 then 0 else notes[i - 1].endMs))
  }

  /** The event written for note `i` is not `{NOTE_REST, 0, 0}`: a MIDI note 0
      of zero length with no gap before it would read as the terminator. */
  predicate NotSentinel(notes: seq<MidiNote>, i: nat)
    requires i < |notes|
  {
    notes[i].note != 0 || DurationMs(notes[i]) != 0 || GapBefore(notes, i) != 0
  }

  /** Every field of the event written for note `i` fits its C type, its
      `NOTE_xxx` name is a single token, and the event is not the terminator. */
  predicate ConverterWritable(notes: seq<MidiNote>, i: nat)
    requires i < |notes|
  {
    && IsUint8(notes[i].note)
    && SpelledAsToken(notes[i].note)
    && IsUint16(DurationMs(notes[i]))
    && IsUint16(GapBefore(notes, i))
    && NotSentinel(notes, i)
  }

  /** One `{array, sizeof(array)/sizeof(note_event_t) - 1, "Name"}` line over
      the array the converter writes. */
  function EmitPart(p: OrchestralPart): (r: Part)
    ensures r.eventCount == |p.notes|
    ensures r.name == p.name
  {
    MakePart(ConverterNoteArray(p.notes), p.name)
  }

  /** The `sizeof - 1` count of the converter's array is the number of notes,
      and a reader scanning to the sentinel finds the same number exactly when
      no note is written as `{NOTE_REST, 0, 0}`. */
  lemma {:induction false} ConverterPartCount(notes: seq<MidiNote>, name: string)
    ensures MakePart(ConverterNoteArray(notes), name).eventCount == |notes|
    ensures ScanLength(ConverterNoteArray(notes)) == |notes|
        <==> forall i | 0 <= i < |notes| :: NotSentinel(notes, i)
  {
    var r := ConverterNoteArray(notes);
    var e := ConverterEvents(notes, 0);
    if forall i | 0 <= i < |notes| :: NotSentinel(notes, i) {
      forall k | 0 <= k < |notes|
        ensures r[k] != Terminator
      {
        assert r[k] == e[k];
        assert NotSentinel(notes, k);
      }
      assert Terminated(r);
      ScanOfTerminated(r);
    } else {
      var k :| 0 <= k < |notes| && !NotSentinel(notes, k);
      assert r[k] == e[k];
      assert r[k] == Terminator;
      assert ScanLength(r) <= k;
    }
  }

  /** The event written for note `k` fits its fields and is not the terminator. */
  lemma {:induction false} ConverterEventValid(notes: seq<MidiNote>, k: nat)
    requires k < |notes|
    requires ConverterWritable(notes, k)
    ensures ValidEvent(ConverterNoteArray(notes)[k])
    ensures ConverterNoteArray(notes)[k] != Terminator
  {
    var e := ConverterEvents(notes, 0);
    assert ConverterNoteArray(notes)[k] == e[k];
    assert e[k].delayMs == GapBefore(notes, k);
  }

  /** The converter's array of writable notes is terminated and every event
      fits its fields. */
  lemma {:induction false} ConverterNoteArrayValid(notes: seq<MidiNote>)
    requires forall i | 0 <= i < |notes| :: ConverterWritable(notes, i)
    ensures Terminated(ConverterNoteArray(notes))
    ensures forall e | e in ConverterNoteArray(notes) :: ValidEvent(e)
  {
    var r := ConverterNoteArray(notes);
    forall k | 0 <= k < |r|
      ensures ValidEvent(r[k])
      ensures k < |r| - 1 ==> r[k] != Terminator
    {
      if k < |notes| {
        ConverterEventValid(notes, k);
      }
    }
    assert Terminator !in r[..|r| - 1];
  }

  /** A part whose notes the converter can write, with a count that fits `uint16_t`. */
  predicate WritablePart(p: OrchestralPart) {
    && (forall i | 0 <= i < |p.notes| :: ConverterWritable(p.notes, i))
    && |p.notes| < 0x1_0000
  }

  /** The part line of a writable part is a valid part. */
  lemma {:induction false} EmitPartValid(p: OrchestralPart)
    requires WritablePart(p)
    ensures ValidPart(EmitPart(p))
    ensures ScanLength(EmitPart(p).events) == EmitPart(p).eventCount
  {
    ConverterNoteArrayValid(p.notes);
    MakePartValid(ConverterNoteArray(p.notes), p.name);
  }

  /** A chord followed by a note a minute later is writable: the bounds are
      per field, and neither sequential notes nor a song shorter than 65536
      ms is needed. */
  lemma WritableChordAndLateNote()
    ensures var notes := [MidiNote(60, 0, 400, 100, 0), MidiNote(64, 0, 400, 100, 0), MidiNote(67, 60000, 70000, 100, 0)];
      && WritablePart(OrchestralPart(0, "Melody", notes))
      && !Sequential(notes)
      && notes[2].endMs >= 0x1_0000
  {
    var notes := [MidiNote(60, 0, 400, 100, 0), MidiNote(64, 0, 400, 100, 0), MidiNote(67, 60000, 70000, 100, 0)];
    assert GapBefore(notes, 1) == 0;
    assert GapBefore(notes, 2) == 59600;
    assert notes[0].endMs > notes[1].startMs;
  }

  /** `_write_parts_array` and `_write_song_struct`: the song keeps the original
      name and has one part per orchestral part. Its id is `hash(name) & 0xFF`
      (the hash is given here); the tempo and the part count are stored in
      `uint8_t` fields, so all three keep their low byte. */
  function GenerateSong(name: string, nameHash: int, tempoBpm: int, parts: seq<OrchestralPart>): (s: Song)
    ensures s.name == name && s.id == Byte(nameHash) && s.tempoBpm == Byte(tempoBpm)
    ensures |s.parts| == |parts| && s.partCount == Byte(|parts|)
    ensures |parts| < 0x100 ==> s.partCount == |s.parts|
    ensures forall i | 0 <= i < |parts| ::
      && s.parts[i].events == ConverterNoteArray(parts[i].notes)
      && s.parts[i].name == parts[i].name
      && s.parts[i].eventCount == |parts[i].notes|
  {
    var ps := seq(|parts|, i requires 0 <= i < |parts| => EmitPart(parts[i]));
    Song(name, Byte(nameHash), Byte(tempoBpm), Byte(|parts|), ps)
  }

  /** With writable parts whose number fits `part_count`, the song the
      converter writes is one the firmware accepts, whatever the hash and tempo. */
  lemma {:induction false} GenerateSongValid(name: string, nameHash: int, tempoBpm: int, parts: seq<OrchestralPart>)
    requires |parts| < 0x100
    requires forall i | 0 <= i < |parts| :: WritablePart(parts[i])
    ensures ValidSong(GenerateSong(name, nameHash, tempoBpm, parts))
  {
    var s := GenerateSong(name, nameHash, tempoBpm, parts);
    forall p | p in s.parts
      ensures ValidPart(p)
    {
      var i :| 0 <= i < |s.parts| && s.parts[i] == p;
      EmitPartValid(parts[i]);
    }
  }

  /** At most six parts come out of the distribution, so the stored part count
      is never truncated. */
  lemma {:induction false} DistributedPartCountFits(notes: seq<MidiNote>, maxParts: int)
    ensures |DistributeNotes(notes, maxParts)| <= 6
    ensures GenerateSong("", 0, 0, DistributeNotes(notes, maxParts)).partCount == |DistributeNotes(notes, maxParts)|
  {
  }

  // ---------------------------------------------------------------------
  // Parts and the song, with the writer the note-event type describes
  // ---------------------------------------------------------------------

  /** The delay the corrected writer puts on note `i`: the silence up to the
      next note, none after the last. */
  function GapAfter(notes: seq<MidiNote>, i: nat): nat
    requires i < |notes|
  {
    if i + 1 < |notes| then Max0(notes[i + 1].startMs - notes[i].endMs) else 0
  }

  /** Every field of the corrected event for note `i` fits its C type, its
      `NOTE_xxx` name is a single token, and the event is not the terminator. */
  predicate CorrectedWritable(notes: seq<MidiNote>, i: nat)
    requires i < |notes|
  {
    && IsUint8(notes[i].note)
    && SpelledAsToken(notes[i].note)
    && IsUint16(DurationMs(notes[i]))
    && IsUint16(GapAfter(notes, i))
    && (notes[i].note != 0 || DurationMs(notes[i]) != 0 || GapAfter(notes, i) != 0)
  }

  /** Every note writable, and a pick-up rest that fits `delay_ms`. */
  predicate CorrectedNotes(notes: seq<MidiNote>) {
    && (|notes| > 0 ==> notes[0].startMs < 0x1_0000)
    && forall i | 0 <= i < |notes| :: CorrectedWritable(notes, i)
  }

  /** The event written for note `i` fits its fields and is not the terminator. */
  lemma {:induction false} GapAfterEventValid(notes: seq<MidiNote>, i: nat)
    requires i < |notes|
    requires CorrectedWritable(notes, i)
    ensures ValidEvent(GapAfterEvents(notes)[i])
    ensures GapAfterEvents(notes)[i] != Terminator
  {
    var e := GapAfterEvents(notes)[i];
    assert e.note == MidiToPitch(notes[i].note);
    assert e.durationMs == DurationMs(notes[i]);
    assert e.delayMs == GapAfter(notes, i);
  }

  /** Event `k` of a corrected array fits its fields, and only the last event
      is the terminator. */
  lemma {:induction false} NoteArrayEventValid(notes: seq<MidiNote>, k: nat)
    requires CorrectedNotes(notes)
    requires k < |NoteArray(notes)|
    ensures ValidEvent(NoteArray(notes)[k])
    ensures k < |NoteArray(notes)| - 1 ==> NoteArray(notes)[k] != Terminator
  {
    var lead := LeadIn(notes);
    var g := GapAfterEvents(notes);
    var e := NoteArray(notes)[k];
    Concat3Index(lead, g, [Terminator], k);
    if k < |lead| {
      assert e == NoteEvent(Rest, 0, notes[0].startMs);
    } else if k < |lead| + |notes| {
      assert e == g[k - |lead|];
      GapAfterEventValid(notes, k - |lead|);
    } else {
      assert e == Terminator;
    }
  }

  /** Every event of a corrected array of writable notes fits its fields, and
      only the last one is the terminator. */
  lemma {:induction false} NoteArrayEventsValid(notes: seq<MidiNote>)
    requires CorrectedNotes(notes)
    ensures Terminated(NoteArray(notes))
    ensures forall e | e in NoteArray(notes) :: ValidEvent(e)
  {
    var r := NoteArray(notes);
    forall k | 0 <= k < |r|
      ensures ValidEvent(r[k])
      ensures k < |r| - 1 ==> r[k] != Terminator
    {
      NoteArrayEventValid(notes, k);
    }
    assert Terminator !in r[..|r| - 1];
  }

  /** The part line over the corrected array. */
  function CorrectedEmitPart(p: OrchestralPart): (r: Part)
    ensures r.eventCount == |LeadIn(p.notes)| + |p.notes|
    ensures r.name == p.name
  {
    MakePart(NoteArray(p.notes), p.name)
  }

  /** In the corrected part line of sequential notes, every note is reached at
      its own start time, with its own pitch. */
  lemma {:induction false} CorrectedPartOnsets(p: OrchestralPart, i: nat)
    requires Sequential(p.notes)
    requires i < |p.notes|
    ensures var e := CorrectedEmitPart(p).events;
      var k := |LeadIn(p.notes)| + i;
      && k < |e|
      && e[k].note == MidiToPitch(p.notes[i].note)
      && Elapsed(e, k) == p.notes[i].startMs
  {
    NoteArrayOnsets(p.notes, i);
  }

  /** The corrected part line of writable notes is a valid part. */
  lemma {:induction false} CorrectedEmitPartValid(p: OrchestralPart)
    requires CorrectedNotes(p.notes)
    requires |LeadIn(p.notes)| + |p.notes| < 0x1_0000
    ensures ValidPart(CorrectedEmitPart(p))
    ensures ScanLength(CorrectedEmitPart(p).events) == CorrectedEmitPart(p).eventCount
  {
    NoteArrayEventsValid(p.notes);
    MakePartValid(NoteArray(p.notes), p.name);
  }

  /** The song record over corrected part lines, with the id, tempo and part
      count stored as `GenerateSong` stores them. */
  function CorrectedGenerateSong(name: string, nameHash: int, tempoBpm: int, parts: seq<OrchestralPart>): (s: Song)
    ensures s.name == name && s.id == Byte(nameHash) && s.tempoBpm == Byte(tempoBpm)
    ensures |s.parts| == |parts| && s.partCount == Byte(|parts|)
    ensures |parts| < 0x100 ==> s.partCount == |s.parts|
    ensures forall i | 0 <= i < |parts| ::
      && s.parts[i].events == NoteArray(parts[i].notes)
      && s.parts[i].name == parts[i].name
      && s.parts[i].eventCount == |LeadIn(parts[i].notes)| + |parts[i].notes|
  {
    var ps := seq(|parts|, i requires 0 <= i < |parts| => CorrectedEmitPart(parts[i]));
    Song(name, Byte(nameHash), Byte(tempoBpm), Byte(|parts|), ps)
  }

  /** With writable parts whose number fits `part_count`, the corrected song
      is one the firmware accepts. */
  lemma {:induction false} CorrectedGenerateSongValid(name: string, nameHash: int, tempoBpm: int, parts: seq<OrchestralPart>)
    requires |parts| < 0x100
    requires forall i | 0 <= i < |parts| ::
      CorrectedNotes(parts[i].notes) && |LeadIn(parts[i].notes)| + |parts[i].notes| < 0x1_0000
    ensures ValidSong(CorrectedGenerateSong(name, nameHash, tempoBpm, parts))
  {
    var s := CorrectedGenerateSong(name, nameHash, tempoBpm, parts);
    forall p | p in s.parts
      ensures ValidPart(p)
    {
      var i :| 0 <= i < |s.parts| && s.parts[i] == p;
      CorrectedEmitPartValid(parts[i]);
    }
  }
}

=== FILE: midi_songs.dfy ===
/** The song registry of the conductor firmware: the event tables of the three
    songs written out in full, their parts arrays, the `all_songs` table and the
    linear lookup by song id. */
module MidiSongs {

  import opened Wrappers
  import opened OrchestraTypes

  // The `NOTE_xxx` pitches the shown tables use.
  const C3 := Tone(0, 3)
  const F3 := Tone(5, 3)
  const G3 := Tone(7, 3)
  const A3 := Tone(9, 3)
  const B3 := Tone(11, 3)
  const C4 := Tone(0, 4)
  const D4 := Tone(2, 4)
  const E4 := Tone(4, 4)
  const F4 := Tone(5, 4)
  const G4 := Tone(7, 4)
  const A4 := Tone(9, 4)
  const B4 := Tone(11, 4)
  const C5 := Tone(0, 5)

  const TwinkleMelody: seq<NoteEvent> := [
    NoteEvent(C4, 400, 100), NoteEvent(C4, 400, 100), NoteEvent(G4, 400, 100), NoteEvent(G4, 400, 100),
    NoteEvent(A4, 400, 100), NoteEvent(A4, 400, 100), NoteEvent(G4, 800, 200), NoteEvent(F4, 400, 100),
    NoteEvent(F4, 400, 100), NoteEvent(E4, 400, 100), NoteEvent(E4, 400, 100), NoteEvent(D4, 400, 100),
    NoteEvent(D4, 400, 100), NoteEvent(C4, 800, 200), NoteEvent(G4, 400, 100), NoteEvent(G4, 400, 100),
    NoteEvent(F4, 400, 100), NoteEvent(F4, 400, 100), NoteEvent(E4, 400, 100), NoteEvent(E4, 400, 100),
    NoteEvent(D4, 800, 200), NoteEvent(G4, 400, 100), NoteEvent(G4, 400, 100), NoteEvent(F4, 400, 100),
    NoteEvent(F4, 400, 100), NoteEvent(E4, 400, 100), NoteEvent(E4, 400, 100), NoteEvent(D4, 800, 200),
    NoteEvent(C4, 400, 100), NoteEvent(C4, 400, 100), NoteEvent(G4, 400, 100), NoteEvent(G4, 400, 100),
    NoteEvent(A4, 400, 100), NoteEvent(A4, 400, 100), NoteEvent(G4, 800, 200), NoteEvent(F4, 400, 100),
    NoteEvent(F4, 400, 100), NoteEvent(E4, 400, 100), NoteEvent(E4, 400, 100), NoteEvent(D4, 400, 100),
    NoteEvent(D4, 400, 100), NoteEvent(C4, 800, 400), NoteEvent(Rest, 0, 0)
  ]

  const TwinkleHarmony: seq<NoteEvent> := [
    NoteEvent(E4, 400, 100), NoteEvent(E4, 400, 100), NoteEvent(B4, 400, 100), NoteEvent(B4, 400, 100),
    NoteEvent(C5, 400, 100), NoteEvent(C5, 400, 100), NoteEvent(B4, 800, 200), NoteEvent(A4, 400, 100),
    NoteEvent(A4, 400, 100), NoteEvent(G4, 400, 100), NoteEvent(G4, 400, 100), NoteEvent(F4, 400, 100),
    NoteEvent(F4, 400, 100), NoteEvent(E4, 800, 200), NoteEvent(B4, 400, 100), NoteEvent(B4, 400, 100),
    NoteEvent(A4, 400, 100), NoteEvent(A4, 400, 100), NoteEvent(G4, 400, 100), NoteEvent(G4, 400, 100),
    NoteEvent(F4, 800, 200), NoteEvent(B4, 400, 100), NoteEvent(B4, 400, 100), NoteEvent(A4, 400, 100),
    NoteEvent(A4, 400, 100), NoteEvent(G4, 400, 100), NoteEvent(G4, 400, 100), NoteEvent(F4, 800, 200),
    NoteEvent(E4, 400, 100), NoteEvent(E4, 400, 100), NoteEvent(B4, 400, 100), NoteEvent(B4, 400, 100),
    NoteEvent(C5, 400, 100), NoteEvent(C5, 400, 100), NoteEvent(B4, 800, 200), NoteEvent(A4, 400, 100),
    NoteEvent(A4, 400, 100), NoteEvent(G4, 400, 100), NoteEvent(G4, 400, 100), NoteEvent(F4, 400, 100),
    NoteEvent(F4, 400, 100), NoteEvent(E4, 800, 400), NoteEvent(Rest, 0, 0)
  ]

  const TwinkleBass: seq<NoteEvent> := [
    NoteEvent(C3, 800, 200), NoteEvent(C3, 800, 200), NoteEvent(F3, 800, 200), NoteEvent(C3, 800, 200),
    NoteEvent(F3, 800, 200), NoteEvent(C3, 800, 200), NoteEvent(G3, 800, 200), NoteEvent(C3, 800, 200),
    NoteEvent(C3, 800, 200), NoteEvent(F3, 800, 200), NoteEvent(C3, 800, 200), NoteEvent(G3, 800, 200),
    NoteEvent(C3, 800, 200), NoteEvent(F3, 800, 200), NoteEvent(C3, 800, 200), NoteEvent(G3, 800, 200),
    NoteEvent(C3, 800, 200), NoteEvent(C3, 800, 200), NoteEvent(F3, 800, 200), NoteEvent(C3, 800, 200),
    NoteEvent(F3, 800, 200), NoteEvent(C3, 800, 200), NoteEvent(G3, 800, 200), NoteEvent(C3, 800, 400),
    NoteEvent(Rest, 0, 0)
  ]

  const TwinkleRhythm: seq<NoteEvent> := [
    NoteEvent(G3, 200, 200), NoteEvent(Rest, 0, 200), NoteEvent(G3, 200, 200), NoteEvent(Rest, 0, 200),
    NoteEvent(G3, 200, 200), NoteEvent(Rest, 0, 200), NoteEvent(G3, 200, 600), NoteEvent(G3, 200, 200),
    NoteEvent(Rest, 0, 200), NoteEvent(G3, 200, 200), NoteEvent(Rest, 0, 200), NoteEvent(G3, 200, 200),
    NoteEvent(Rest, 0, 200), NoteEvent(G3, 200, 600), NoteEvent(G3, 200, 200), NoteEvent(Rest, 0, 200),
    NoteEvent(G3, 200, 200), NoteEvent(Rest, 0, 200), NoteEvent(G3, 200, 200), NoteEvent(Rest, 0, 200),
    NoteEvent(G3, 200, 600), NoteEvent(G3, 200, 200), NoteEvent(Rest, 0, 200), NoteEvent(G3, 200, 200),
    NoteEvent(Rest, 0, 200), NoteEvent(G3, 200, 200), NoteEvent(Rest, 0, 200), NoteEvent(G3, 200, 600),
    NoteEvent(G3, 200, 200), NoteEvent(Rest, 0, 200), NoteEvent(G3, 200, 200), NoteEvent(Rest, 0, 200),
    NoteEvent(G3, 200, 200), NoteEvent(Rest, 0, 200), NoteEvent(G3, 200, 600), NoteEvent(G3, 200, 200),
    NoteEvent(Rest, 0, 200), NoteEvent(G3, 200, 200), NoteEvent(Rest, 0, 200), NoteEvent(G3, 200, 200),
    NoteEvent(Rest, 0, 200), NoteEvent(G3, 200, 400), NoteEvent(Rest, 0, 0)
  ]

  const BirthdayMelody: seq<NoteEvent> := [
    NoteEvent(Rest, 0, 400), NoteEvent(C4, 200, 100), NoteEvent(C4, 400, 100), NoteEvent(D4, 800, 100),
    NoteEvent(C4, 800, 100), NoteEvent(F4, 800, 100), NoteEvent(E4, 1200, 200), NoteEvent(C4, 200, 100),
    NoteEvent(C4, 400, 100), NoteEvent(D4, 800, 100), NoteEvent(C4, 800, 100), NoteEvent(G4, 800, 100),
    NoteEvent(F4, 1200, 200), NoteEvent(C4, 200, 100), NoteEvent(C4, 400, 100), NoteEvent(C5, 800, 100),
    NoteEvent(A4, 800, 100), NoteEvent(F4, 800, 100), NoteEvent(E4, 800, 100), NoteEvent(D4, 1200, 200),
    NoteEvent(B4, 200, 100), NoteEvent(B4, 400, 100), NoteEvent(A4, 800, 100), NoteEvent(F4, 800, 100),
    NoteEvent(G4, 800, 100), NoteEvent(F4, 1200, 400), NoteEvent(Rest, 0, 0)
  ]

  const BirthdayHarmony: seq<NoteEvent> := [
    NoteEvent(Rest, 0, 400), NoteEvent(A3, 200, 100), NoteEvent(A3, 400, 100), NoteEvent(B3, 800, 100),
    NoteEvent(A3, 800, 100), NoteEvent(D4, 800, 100), NoteEvent(C4, 1200, 200), NoteEvent(A3, 200, 100),
    NoteEvent(A3, 400, 100), NoteEvent(B3, 800, 100), NoteEvent(A3, 800, 100), NoteEvent(E4, 800, 100),
    NoteEvent(D4, 1200, 200), NoteEvent(A3, 200, 100), NoteEvent(A3, 400, 100), NoteEvent(A4, 800, 100),
    NoteEvent(F4, 800, 100), NoteEvent(D4, 800, 100), NoteEvent(C4, 800, 100), NoteEvent(B3, 1200, 200),
    NoteEvent(G4, 200, 100), NoteEvent(G4, 400, 100), NoteEvent(F4, 800, 100), NoteEvent(D4, 800, 100),
    NoteEvent(E4, 800, 100), NoteEvent(D4, 1200, 400), NoteEvent(Rest, 0, 0)
  ]

  const BirthdayBass: seq<NoteEvent> := [
    NoteEvent(Rest, 0, 400), NoteEvent(F3, 600, 200), NoteEvent(F3, 800, 100), NoteEvent(C3, 800, 100),
    NoteEvent(F3, 800, 100), NoteEvent(C3, 1200, 200), NoteEvent(F3, 600, 200), NoteEvent(F3, 800, 100),
    NoteEvent(C3, 800, 100), NoteEvent(G3, 800, 100), NoteEvent(F3, 1200, 200), NoteEvent(F3, 600, 200),
    NoteEvent(F3, 800, 100), NoteEvent(F3, 800, 100), NoteEvent(F3, 800, 100), NoteEvent(B3, 800, 100),
    NoteEvent(A3, 800, 100), NoteEvent(G3, 1200, 200), NoteEvent(G3, 600, 200), NoteEvent(G3, 800, 100),
    NoteEvent(F3, 800, 100), NoteEvent(F3, 800, 100), NoteEvent(C3, 800, 100), NoteEvent(F3, 1200, 400),
    NoteEvent(Rest, 0, 0)
  ]

  const MaryMelody: seq<NoteEvent> := [
    NoteEvent(E4, 400, 100), NoteEvent(D4, 400, 100), NoteEvent(C4, 400, 100), NoteEvent(D4, 400, 100),
    NoteEvent(E4, 400, 100), NoteEvent(E4, 400, 100), NoteEvent(E4, 800, 200), NoteEvent(D4, 400, 100),
    NoteEvent(D4, 400, 100), NoteEvent(D4, 800, 200), NoteEvent(E4, 400, 100), NoteEvent(E4, 400, 100),
    NoteEvent(E4, 800, 200), NoteEvent(E4, 400, 100), NoteEvent(D4, 400, 100), NoteEvent(C4, 400, 100),
    NoteEvent(D4, 400, 100), NoteEvent(E4, 400, 100), NoteEvent(E4, 400, 100), NoteEvent(E4, 400, 100),
    NoteEvent(D4, 400, 100), NoteEvent(D4, 400, 100), NoteEvent(E4, 400, 100), NoteEvent(D4, 400, 100),
    NoteEvent(C4, 800, 400), NoteEvent(Rest, 0, 0)
  ]

  const MaryHarmony: seq<NoteEvent> := [
    NoteEvent(C4, 400, 100), NoteEvent(B3, 400, 100), NoteEvent(A3, 400, 100), NoteEvent(B3, 400, 100),
    NoteEvent(C4, 400, 100), NoteEvent(C4, 400, 100), NoteEvent(C4, 800, 200), NoteEvent(B3, 400, 100),
    NoteEvent(B3, 400, 100), NoteEvent(B3, 800, 200), NoteEvent(C4, 400, 100), NoteEvent(C4, 400, 100),
    NoteEvent(C4, 800, 200), NoteEvent(C4, 400, 100), NoteEvent(B3, 400, 100), NoteEvent(A3, 400, 100),
    NoteEvent(B3, 400, 100), NoteEvent(C4, 400, 100), NoteEvent(C4, 400, 100), NoteEvent(C4, 400, 100),
    NoteEvent(B3, 400, 100), NoteEvent(B3, 400, 100), NoteEvent(C4, 400, 100), NoteEvent(B3, 400, 100),
    NoteEvent(A3, 800, 400), NoteEvent(Rest, 0, 0)
  ]

  const TwinkleParts: seq<Part> := [
    MakePart(TwinkleMelody, "Melody"),
    MakePart(TwinkleHarmony, "Harmony"),
    MakePart(TwinkleBass, "Bass"),
    MakePart(TwinkleRhythm, "Rhythm")
  ]

  const BirthdayParts: seq<Part> := [
    MakePart(BirthdayMelody, "Melody"),
    MakePart(BirthdayHarmony, "Harmony"),
    MakePart(BirthdayBass, "Bass")
  ]

  const MaryParts: seq<Part> := [
    MakePart(MaryMelody, "Melody"),
    MakePart(MaryHarmony, "Harmony")
  ]

  /** The `SONG_xxx` identifiers. Their values are defined outside this model,
      so the registry is stated for every choice of them; `all_songs` stores
      each in a `uint8_t`, that is, modulo 256. */
  datatype SongIds = SongIds(twinkleStar: int, happyBirthday: int, maryLamb: int, thailand: int, titanic: int)

  // The song names of the registry.
  const TwinkleTitle := "Twinkle Twinkle Little Star"
  const BirthdayTitle := "Happy Birthday"
  const MaryTitle := "Mary Had a Little Lamb"
  const ThailandTitle := "Thailand"
  const TitanicTitle := "Movie_Themes_-_Titanic_-_My_Heart_Will_Go_On_(Techno_Mix)"

  /** `all_songs`. The parts arrays of "Thailand" and of the Titanic theme come
      from headers outside this model and are parameters here. */
  function AllSongs(ids: SongIds, thailandParts: seq<Part>, titanicParts: seq<Part>): (r: seq<Song>)
    ensures |r| == 5
    ensures forall k | 0 <= k < 5 :: IsUint8(r[k].id) && IsUint8(r[k].tempoBpm) && IsUint8(r[k].partCount)
    ensures forall k | 0 <= k < 3 :: r[k].partCount == |r[k].parts|
  {
    [
      Song(TwinkleTitle, Byte(ids.twinkleStar), 120, 4, TwinkleParts),
      Song(BirthdayTitle, Byte(ids.happyBirthday), 120, 3, BirthdayParts),
      Song(MaryTitle, Byte(ids.maryLamb), 140, 2, MaryParts),
      Song(ThailandTitle, Byte(ids.thailand), 116, 4, thailandParts),
      Song(TitanicTitle, Byte(ids.titanic), 135, 4, titanicParts)
    ]
  }

  /** Every zero-length event of the array is a rest. */
  predicate ZeroDurationIsRest(events: seq<NoteEvent>) {
    forall e | e in events :: e.durationMs == 0 ==> e.note == Rest
  }

  /** What the shown tables promise: terminated, every field in range, silent
      zero-length events, and a count that fits `event_count`. */
  predicate ShownTable(events: seq<NoteEvent>) {
    && Terminated(events)
    && |events| <= 0x1_0000
    && (forall e | e in events :: ValidEvent(e))
    && ZeroDurationIsRest(events)
  }

  lemma TwinkleMelodyTerminated()
    ensures Terminated(TwinkleMelody) && |TwinkleMelody| == 43
  {
    assert |TwinkleMelody| == 43 && TwinkleMelody[42] == Terminator;
    assert Terminator !in TwinkleMelody[..42];
  }

  lemma TwinkleMelodyEventsValid()
    ensures forall e | e in TwinkleMelody :: ValidEvent(e)
  {
  }

  lemma TwinkleMelodyRestsSilent()
    ensures ZeroDurationIsRest(TwinkleMelody)
  {
  }

  lemma TwinkleMelodyWellFormed()
    ensures ShownTable(TwinkleMelody) && |TwinkleMelody| == 43
  {
    TwinkleMelodyTerminated();
    TwinkleMelodyEventsValid();
    TwinkleMelodyRestsSilent();
  }

  lemma TwinkleHarmonyTerminated()
    ensures Terminated(TwinkleHarmony) && |TwinkleHarmony| == 43
  {
    assert |TwinkleHarmony| == 43 && TwinkleHarmony[42] == Terminator;
    assert Terminator !in TwinkleHarmony[..42];
  }

  lemma TwinkleHarmonyEventsValid()
    ensures forall e | e in TwinkleHarmony :: ValidEvent(e)
  {
  }

  lemma TwinkleHarmonyRestsSilent()
    ensures ZeroDurationIsRest(TwinkleHarmony)
  {
  }

  lemma TwinkleHarmonyWellFormed()
    ensures ShownTable(TwinkleHarmony) && |TwinkleHarmony| == 43
  {
    TwinkleHarmonyTerminated();
    TwinkleHarmonyEventsValid();
    TwinkleHarmonyRestsSilent();
  }

  lemma TwinkleBassTerminated()
    ensures Terminated(TwinkleBass) && |TwinkleBass| == 25
  {
    assert |TwinkleBass| == 25 && TwinkleBass[24] == Terminator;
    assert Terminator !in TwinkleBass[..24];
  }

  lemma TwinkleBassEventsValid()
    ensures forall e | e in TwinkleBass :: ValidEvent(e)
  {
  }

  lemma TwinkleBassRestsSilent()
    ensures ZeroDurationIsRest(TwinkleBass)
  {
  }

  lemma TwinkleBassWellFormed()
    ensures ShownTable(TwinkleBass) && |TwinkleBass| == 25
  {
    TwinkleBassTerminated();
    TwinkleBassEventsValid();
    TwinkleBassRestsSilent();
  }

  lemma TwinkleRhythmTerminated()
    ensures Terminated(TwinkleRhythm) && |TwinkleRhythm| == 43
  {
    assert |TwinkleRhythm| == 43 && TwinkleRhythm[42] == Terminator;
    assert Terminator !in TwinkleRhythm[..42];
  }

  lemma TwinkleRhythmEventsValid()
    ensures forall e | e in TwinkleRhythm :: ValidEvent(e)
  {
  }

  lemma TwinkleRhythmRestsSilent()
    ensures ZeroDurationIsRest(TwinkleRhythm)
  {
  }

  lemma TwinkleRhythmWellFormed()
    ensures ShownTable(TwinkleRhythm) && |TwinkleRhythm| == 43
  {
    TwinkleRhythmTerminated();
    TwinkleRhythmEventsValid();
    TwinkleRhythmRestsSilent();
  }

  lemma BirthdayMelodyTerminated()
    ensures Terminated(BirthdayMelody) && |BirthdayMelody| == 27
  {
    assert |BirthdayMelody| == 27 && BirthdayMelody[26] == Terminator;
    assert Terminator !in BirthdayMelody[..26];
  }

  lemma BirthdayMelodyEventsValid()
    ensures forall e | e in BirthdayMelody :: ValidEvent(e)
  {
  }

  lemma BirthdayMelodyRestsSilent()
    ensures ZeroDurationIsRest(BirthdayMelody)
  {
  }

  lemma BirthdayMelodyWellFormed()
    ensures ShownTable(BirthdayMelody) && |BirthdayMelody| == 27
  {
    BirthdayMelodyTerminated();
    BirthdayMelodyEventsValid();
    BirthdayMelodyRestsSilent();
  }

  lemma BirthdayHarmonyTerminated()
    ensures Terminated(BirthdayHarmony) && |BirthdayHarmony| == 27
  {
    assert |BirthdayHarmony| == 27 && BirthdayHarmony[26] == Terminator;
    assert Terminator !in BirthdayHarmony[..26];
  }

  lemma BirthdayHarmonyEventsValid()
    ensures forall e | e in BirthdayHarmony :: ValidEvent(e)
  {
  }

  lemma BirthdayHarmonyRestsSilent()
    ensures ZeroDurationIsRest(BirthdayHarmony)
  {
  }

  lemma BirthdayHarmonyWellFormed()
    ensures ShownTable(BirthdayHarmony) && |BirthdayHarmony| == 27
  {
    BirthdayHarmonyTerminated();
    BirthdayHarmonyEventsValid();
    BirthdayHarmonyRestsSilent();
  }

  lemma BirthdayBassTerminated()
    ensures Terminated(BirthdayBass) && |BirthdayBass| == 25
  {
    assert |BirthdayBass| == 25 && BirthdayBass[24] == Terminator;
    assert Terminator !in BirthdayBass[..24];
  }

  lemma BirthdayBassEventsValid()
    ensures forall e | e in BirthdayBass :: ValidEvent(e)
  {
  }

  lemma BirthdayBassRestsSilent()
    ensures ZeroDurationIsRest(BirthdayBass)
  {
  }

  lemma BirthdayBassWellFormed()
    ensures ShownTable(BirthdayBass) && |BirthdayBass| == 25
  {
    BirthdayBassTerminated();
    BirthdayBassEventsValid();
    BirthdayBassRestsSilent();
  }

  lemma MaryMelodyTerminated()
    ensures Terminated(MaryMelody) && |MaryMelody| == 26
  {
    assert |MaryMelody| == 26 && MaryMelody[25] == Terminator;
    assert Terminator !in MaryMelody[..25];
  }

  lemma MaryMelodyEventsValid()
    ensures forall e | e in MaryMelody :: ValidEvent(e)
  {
  }

  lemma MaryMelodyRestsSilent()
    ensures ZeroDurationIsRest(MaryMelody)
  {
  }

  lemma MaryMelodyWellFormed()
    ensures ShownTable(MaryMelody) && |MaryMelody| == 26
  {
    MaryMelodyTerminated();
    MaryMelodyEventsValid();
    MaryMelodyRestsSilent();
  }

  lemma MaryHarmonyTerminated()
    ensures Terminated(MaryHarmony) && |MaryHarmony| == 26
  {
    assert |MaryHarmony| == 26 && MaryHarmony[25] == Terminator;
    assert Terminator !in MaryHarmony[..25];
  }

  lemma MaryHarmonyEventsValid()
    ensures forall e | e in MaryHarmony :: ValidEvent(e)
  {
  }

  lemma MaryHarmonyRestsSilent()
    ensures ZeroDurationIsRest(MaryHarmony)
  {
  }

  lemma MaryHarmonyWellFormed()
    ensures ShownTable(MaryHarmony) && |MaryHarmony| == 26
  {
    MaryHarmonyTerminated();
    MaryHarmonyEventsValid();
    MaryHarmonyRestsSilent();
  }
  /** A part array whose every part is built by the `sizeof - 1` initializer
      from a table that is `ShownTable`. */
  lemma {:induction false} ShownPartsValid(parts: seq<Part>, tables: seq<seq<NoteEvent>>, names: seq<string>)
    requires |parts| == |tables| == |names|
    requires forall i | 0 <= i < |tables| :: ShownTable(tables[i]) && parts[i] == MakePart(tables[i], names[i])
    ensures forall p | p in parts :: ValidPart(p)
  {
    forall p | p in parts
      ensures ValidPart(p)
    {
      var i :| 0 <= i < |parts| && parts[i] == p;
      MakePartValid(tables[i], names[i]);
    }
  }

  /** Every part of a parts array is valid, its `event_count` is what a walk up
      to the first `{NOTE_REST, 0, 0}` finds, and its zero-length events are rests. */
  predicate ShownPartsArray(parts: seq<Part>) {
    forall p | p in parts :: ValidPart(p) && ScanLength(p.events) == p.eventCount && ZeroDurationIsRest(p.events)
  }

  lemma {:induction false} ShownPartsArrayOf(parts: seq<Part>, tables: seq<seq<NoteEvent>>, names: seq<string>)
    requires |parts| == |tables| == |names|
    requires forall i | 0 <= i < |tables| :: ShownTable(tables[i]) && parts[i] == MakePart(tables[i], names[i])
    ensures ShownPartsArray(parts)
  {
    ShownPartsValid(parts, tables, names);
    forall p | p in parts
      ensures ScanLength(p.events) == p.eventCount && ZeroDurationIsRest(p.events)
    {
      var i :| 0 <= i < |parts| && parts[i] == p;
      assert ShownTable(tables[i]);
      CountMatchesSentinel(p);
    }
  }

  /** The parts array of "Twinkle Twinkle Little Star" holds its 4 parts. */
  lemma TwinklePartsValid()
    ensures |TwinkleParts| == 4 && ShownPartsArray(TwinkleParts)
  {
    TwinkleMelodyWellFormed();
    TwinkleHarmonyWellFormed();
    TwinkleBassWellFormed();
    TwinkleRhythmWellFormed();
    ShownPartsArrayOf(TwinkleParts, [TwinkleMelody, TwinkleHarmony, TwinkleBass, TwinkleRhythm],
                      ["Melody", "Harmony", "Bass", "Rhythm"]);
  }

  /** The parts array of "Happy Birthday" holds its 3 parts. */
  lemma BirthdayPartsValid()
    ensures |BirthdayParts| == 3 && ShownPartsArray(BirthdayParts)
  {
    BirthdayMelodyWellFormed();
    BirthdayHarmonyWellFormed();
    BirthdayBassWellFormed();
    ShownPartsArrayOf(BirthdayParts, [BirthdayMelody, BirthdayHarmony, BirthdayBass],
                      ["Melody", "Harmony", "Bass"]);
  }

  /** The parts array of "Mary Had a Little Lamb" holds its 2 parts. */
  lemma MaryPartsValid()
    ensures |MaryParts| == 2 && ShownPartsArray(MaryParts)
  {
    MaryMelodyWellFormed();
    MaryHarmonyWellFormed();
    ShownPartsArrayOf(MaryParts, [MaryMelody, MaryHarmony], ["Melody", "Harmony"]);
  }

  /** In a terminated array of silent zero-length events, a rest inside the
      array always carries a nonzero delay, so it is never taken for the end. */
  lemma {:induction false} InteriorRestsHaveDelay(events: seq<NoteEvent>)
    requires Terminated(events)
    requires ZeroDurationIsRest(events)
    requires forall e | e in events :: ValidEvent(e)
    ensures forall i | 0 <= i < |events| - 1 :: events[i].durationMs == 0 ==> events[i].note == Rest && events[i].delayMs > 0
  {
    forall i | 0 <= i < |events| - 1
      ensures events[i].durationMs == 0 ==> events[i].note == Rest && events[i].delayMs > 0
    {
      assert events[i] in events[..|events| - 1];
      assert events[i] in events;
    }
  }

  /** With the shown parts and any well-formed parts for the two songs defined
      elsewhere, every registry entry is a valid song, whatever the ids: ids,
      tempos and part counts are bytes and each `part_count` is the length of
      its parts array. */
  lemma {:induction false} RegistryValid(ids: SongIds, thailandParts: seq<Part>, titanicParts: seq<Part>)
    requires |thailandParts| == 4 && forall p | p in thailandParts :: ValidPart(p)
    requires |titanicParts| == 4 && forall p | p in titanicParts :: ValidPart(p)
    ensures |AllSongs(ids, thailandParts, titanicParts)| == 5
    ensures forall s | s in AllSongs(ids, thailandParts, titanicParts) :: ValidSong(s)
  {
    var songs := AllSongs(ids, thailandParts, titanicParts);
    forall s | s in songs
      ensures ValidSong(s)
    {
      var k :| 0 <= k < 5 && songs[k] == s;
      RegistryEntryValid(ids, thailandParts, titanicParts, k);
    }
  }

  /** A song whose id and tempo fit a byte and whose parts are valid. */
  lemma SongOfValidParts(name: string, id: int, tempo: int, parts: seq<Part>)
    requires IsUint8(id) && IsUint8(tempo) && |parts| < 0x100
    requires forall p | p in parts :: ValidPart(p)
    ensures ValidSong(Song(name, id, tempo, |parts|, parts))
  {
  }

  /** One registry entry at a time. */
  lemma RegistryEntryValid(ids: SongIds, thailandParts: seq<Part>, titanicParts: seq<Part>, k: nat)
    requires |thailandParts| == 4 && forall p | p in thailandParts :: ValidPart(p)
    requires |titanicParts| == 4 && forall p | p in titanicParts :: ValidPart(p)
    requires k < 5
    ensures ValidSong(AllSongs(ids, thailandParts, titanicParts)[k])
  {
    var songs := AllSongs(ids, thailandParts, titanicParts);
    var name, id, tempo, parts;
    if k == 0 {
      TwinklePartsValid();
      name, id, tempo, parts := TwinkleTitle, Byte(ids.twinkleStar), 120, TwinkleParts;
    } else if k == 1 {
      BirthdayPartsValid();
      name, id, tempo, parts := BirthdayTitle, Byte(ids.happyBirthday), 120, BirthdayParts;
    } else if k == 2 {
      MaryPartsValid();
      name, id, tempo, parts := MaryTitle, Byte(ids.maryLamb), 140, MaryParts;
    } else if k == 3 {
      name, id, tempo, parts := ThailandTitle, Byte(ids.thailand), 116, thailandParts;
    } else {
      name, id, tempo, parts := TitanicTitle, Byte(ids.titanic), 135, titanicParts;
    }
    assert songs[k] == Song(name, id, tempo, |parts|, parts);
    SongOfValidParts(name, id, tempo, parts);
  }

  /** Index of the first song carrying `id`, scanning from `from`. */
  function FirstMatchFrom(songs: seq<Song>, id: int, from: nat): (r: Option<nat>)
    requires from <= |songs|
    ensures r.Some? ==> from <= r.value < |songs| && songs[r.value].id == id
    ensures r.Some? ==> forall j | from <= j < r.value :: songs[j].id != id
    ensures r.None? <==> forall j | from <= j < |songs| :: songs[j].id != id
    decreases |songs| - from
  {
    if from == |songs| then None
    else if songs[from].id == id then Some(from)
    else FirstMatchFrom(songs, id, from + 1)
  }

  /** The reference answer of a lookup: the first entry with the id, if any. */
  function FindSong(songs: seq<Song>, id: int): (r: Option<Song>)
    ensures r.None? <==> forall j | 0 <= j < |songs| :: songs[j].id != id
    ensures r.Some? ==> r.value.id == id && r.value in songs
  {
    match FirstMatchFrom(songs, id, 0)
    case None => None
    case Some(i) => Some(songs[i])
  }

  /** `get_song_by_id`: the loop over the first `TOTAL_SONGS` entries that
      returns the first whose id matches, or NULL. */
  method GetSongById(songs: seq<Song>, id: int) returns (r: Option<Song>)
    requires IsUint8(id)
    ensures r.None? <==> forall j | 0 <= j < |songs| :: songs[j].id != id
    ensures r.Some? ==> exists i | 0 <= i < |songs| ::
      songs[i] == r.value && r.value.id == id && forall j | 0 <= j < i :: songs[j].id != id
    ensures r == FindSong(songs, id)
  {
    var i := 0;
    while i < |songs|
      invariant 0 <= i <= |songs|
      invariant forall j | 0 <= j < i :: songs[j].id != id
      invariant FirstMatchFrom(songs, id, 0) == FirstMatchFrom(songs, id, i)
    {
      if songs[i].id == id {
        return Some(songs[i]);
      }
      i := i + 1;
    }
    return None;
  }

  /** `TOTAL_SONGS` is 5, and every registered title can be found by the low
      byte of its id: an id that is not shadowed by an earlier entry returns
      its own song. */
  lemma {:induction false} LookupShownSongs(ids: SongIds, thailandParts: seq<Part>, titanicParts: seq<Part>)
    ensures var songs := AllSongs(ids, thailandParts, titanicParts);
      && |songs| == 5
      && FindSong(songs, Byte(ids.twinkleStar)) == Some(songs[0])
      && (Byte(ids.happyBirthday) != Byte(ids.twinkleStar) ==> FindSong(songs, Byte(ids.happyBirthday)) == Some(songs[1]))
      && (Byte(ids.maryLamb) !in {Byte(ids.twinkleStar), Byte(ids.happyBirthday)} ==>
            FindSong(songs, Byte(ids.maryLamb)) == Some(songs[2]))
      && songs[0].name == "Twinkle Twinkle Little Star"
      && songs[1].name == "Happy Birthday"
      && songs[2].name == "Mary Had a Little Lamb"
  {
    var songs := AllSongs(ids, thailandParts, titanicParts);
    var twinkle, birthday, mary := Byte(ids.twinkleStar), Byte(ids.happyBirthday), Byte(ids.maryLamb);
    assert FirstMatchFrom(songs, twinkle, 0) == Some(0);
    if birthday != twinkle {
      assert FirstMatchFrom(songs, birthday, 0) == Some(1);
    }
    if mary !in {twinkle, birthday} {
      assert FirstMatchFrom(songs, mary, 2) == Some(2);
      assert FirstMatchFrom(songs, mary, 1) == Some(2);
      assert FirstMatchFrom(songs, mary, 0) == Some(2);
    }
  }

  /** An id that no entry carries, after truncation to a byte, is not found. */
  lemma {:induction false} LookupUnregistered(ids: SongIds, thailandParts: seq<Part>, titanicParts: seq<Part>, id: int)
    requires id !in {Byte(ids.twinkleStar), Byte(ids.happyBirthday), Byte(ids.maryLamb), Byte(ids.thailand), Byte(ids.titanic)}
    ensures FindSong(AllSongs(ids, thailandParts, titanicParts), id) == None
  {
    var songs := AllSongs(ids, thailandParts, titanicParts);
    assert forall j | 0 <= j < |songs| ::
      songs[j].id in {Byte(ids.twinkleStar), Byte(ids.happyBirthday), Byte(ids.maryLamb), Byte(ids.thailand), Byte(ids.titanic)};
  }
}

=== FILE: note_names.dfy ===
/** The converter's MIDI-number to note-name mappings: `_midi_to_note_name`
    spells the `NOTE_xxx` constant written into a table, `_note_to_string` the
    readable name written into its comment. */
module NoteNames {

  import opened OrchestraTypes

  /** Pitch-class spellings of the `NOTE_xxx` identifiers (sharps as `S`). */
  const IdentifierNames: seq<string> := ["C", "CS", "D", "DS", "E", "F", "FS", "G", "GS", "A", "AS", "B"]

  /** Pitch-class spellings of the readable names (sharps as `#`). */
  const DisplayNames: seq<string> := ["C", "C#", "D", "D#", "E", "F", "F#", "G", "G#", "A", "A#", "B"]

  /** Octave of a MIDI note number, `(n - 12) // 12` in Python. Python's `//`
      rounds toward negative infinity, which for the positive divisor 12 is
      Dafny's Euclidean `/`. */
  function Octave(n: int): int {
    (n - 12) / 12
  }

  /** Pitch class, `n % 12` in Python: for the divisor 12 always in 0..11,
      as is Dafny's `%`. */
  function PitchClass(n: int): int {
    n % 12
  }

  /** The pitch a MIDI note number denotes: the rest for 0, and otherwise the
      pitch class and octave the two names are built from. */
  function MidiToPitch(n: int): (p: Pitch)
    ensures p == Rest <==> n == 0
    ensures ValidPitch(p)
    ensures PitchCode(p) == n
  {
    if n == 0 then Rest else Tone(PitchClass(n), Octave(n))
  }

  /** Every valid pitch is the image of its own note number, so `MidiToPitch`
      and `PitchCode` are inverse bijections between note numbers and valid pitches. */
  lemma {:induction false} PitchRoundTrip(p: Pitch)
    requires ValidPitch(p)
    ensures MidiToPitch(PitchCode(p)) == p
  {
    match p
    case Rest =>
    case Tone(pc, oct) =>
      var n := 12 * (oct + 1) + pc;
      assert n - 12 == 12 * oct + pc;
      assert (n - 12) / 12 == oct && (n - 12) % 12 == pc;
  }

  /** Decimal digit character. */
  function DigitChar(d: int): char
    requires 0 <= d < 10
  {
    "0123456789"[d]
  }

  /** Python's `str` of a non-negative int. */
  function NatToString(n: nat): (s: string)
    ensures |s| > 0
    ensures forall i | 0 <= i < |s| :: '0' <= s[i] <= '9'
    decreases n
  {
    if n < 10 then [DigitChar(n)] else NatToString(n / 10) + [DigitChar(n % 10)]
  }

  /** Python's `str` of an int, as an f-string writes it. */
  function IntToString(i: int): (s: string)
    ensures |s| > 0
    ensures forall k | 0 <= k < |s| :: s[k] == '-' || '0' <= s[k] <= '9'
  {
    if i < 0 then "-" + NatToString(-i) else NatToString(i)
  }

  /** The `NOTE_xxx` identifier of a pitch. */
  function PitchName(p: Pitch): string
    requires ValidPitch(p)
  {
    match p
    case Rest => "NOTE_REST"
    case Tone(pc, oct) => "NOTE_" + IdentifierNames[pc] + IntToString(oct)
  }

  /** `_midi_to_note_name`: `NOTE_` and then a spelling; `NOTE_REST` is the
      name of note 0 and of no other number. */
  function MidiToNoteName(n: int): (s: string)
    ensures s == PitchName(MidiToPitch(n))
    ensures |s| > 5 && s[..5] == "NOTE_"
    ensures s == "NOTE_REST" <==> n == 0
  {
    if n == 0 then "NOTE_REST"
    else
      var x := IdentifierNames[PitchClass(n)];
      var i := IntToString(Octave(n));
      SpellingsAreSpellings(PitchClass(n));
      RestNotSpelled(x, i);
      assert ("NOTE_" + x + i)[5..] == x + i;
      "NOTE_" + x + i
  }

  /** A note number whose `NOTE_xxx` name is a single C token: the rest, or
      a note in octave 0 or above. Below 12 the floor-division octave is
      negative and the name carries a minus sign, as in `NOTE_CS-1`, which a
      C compiler reads as `NOTE_CS - 1`. */
  predicate SpelledAsToken(n: int) {
    n == 0 || n >= 12
  }

  /** The written name has a minus sign exactly when the note is not spelled
      as a single token. */
  lemma {:induction false} NoteNameMinus(n: int)
    ensures '-' in MidiToNoteName(n) <==> !SpelledAsToken(n)
  {
    if n != 0 {
      var pc, oct := PitchClass(n), Octave(n);
      NoteNameShape(n);
      SpellingHasNoMinus(pc);
      NameMinus(IdentifierNames[pc], IntToString(oct));
      OctaveMinus(oct);
    }
  }

  /** No identifier spelling has a minus sign. */
  lemma SpellingHasNoMinus(pc: int)
    requires 0 <= pc < 12
    ensures '-' !in IdentifierNames[pc]
  {
  }

  /** With a spelling free of minus signs, the name has one exactly when the
      octave text has. */
  lemma NameMinus(x: string, i: string)
    requires '-' !in x
    ensures '-' in "NOTE_" + (x + i) <==> '-' in i
  {
    assert forall k | 0 <= k < |i| :: ("NOTE_" + (x + i))[5 + |x| + k] == i[k];
    assert forall k | 0 <= k < 5 + |x| :: ("NOTE_" + (x + i))[k] in "NOTE_" + x;
  }

  /** The octave text has a minus sign exactly when the octave is negative. */
  lemma OctaveMinus(oct: int)
    ensures '-' in IntToString(oct) <==> oct < 0
  {
    if oct >= 0 {
      assert forall c | c in NatToString(oct) :: '0' <= c <= '9';
    }
  }

  /** `_note_to_string`: `REST` is the name of note 0 and of no other number. */
  function NoteToString(n: int): (s: string)
    ensures s == "REST" <==> n == 0
  {
    if n == 0 then "REST"
    else
      var x := DisplayNames[PitchClass(n)];
      var i := IntToString(Octave(n));
      SpellingsAreSpellings(PitchClass(n));
      RestNotSpelled(x, i);
      x + i
  }

  /** A character that can begin a written octave. */
  predicate IsNumeral(c: char) {
    c == '-' || '0' <= c <= '9'
  }

  /** A pitch-class spelling: a letter, possibly followed by a sharp sign. */
  predicate IsSpelling(x: string) {
    1 <= |x| <= 2 && (|x| == 2 ==> !IsNumeral(x[1]))
  }

  lemma SpellingsAreSpellings(pc: int)
    requires 0 <= pc < 12
    ensures IsSpelling(IdentifierNames[pc]) && IsSpelling(DisplayNames[pc])
  {
  }

  /** The pitch class a spelling of either table names. */
  function ClassOfSpelling(x: string): int {
    if x == "C" then 0
    else if x == "CS" || x == "C#" then 1
    else if x == "D" then 2
    else if x == "DS" || x == "D#" then 3
    else if x == "E" then 4
    else if x == "F" then 5
    else if x == "FS" || x == "F#" then 6
    else if x == "G" then 7
    else if x == "GS" || x == "G#" then 8
    else if x == "A" then 9
    else if x == "AS" || x == "A#" then 10
    else 11
  }

  /** Each table spells each pitch class differently. */
  lemma SpellingClass(pc: int)
    requires 0 <= pc < 12
    ensures ClassOfSpelling(IdentifierNames[pc]) == pc
    ensures ClassOfSpelling(DisplayNames[pc]) == pc
  {
  }

  /** A spelled pitch is never `REST`. */
  lemma RestNotSpelled(x: string, i: string)
    requires IsSpelling(x)
    requires |i| > 0 && IsNumeral(i[0])
    ensures x + i != "REST"
  {
    if |x| == 1 {
      assert (x + i)[1] != "REST"[1];
    } else {
      assert (x + i)[2] != "REST"[2];
    }
  }

  lemma DigitCharCode(d: int)
    requires 0 <= d < 10
    ensures DigitChar(d) as int == 48 + d
  {
  }

  /** Distinct numbers are written differently. */
  lemma {:induction false} NatToStringInjective(a: nat, b: nat)
    ensures NatToString(a) == NatToString(b) <==> a == b
    decreases a
  {
    var sa := NatToString(a);
    var sb := NatToString(b);
    if a < 10 && b < 10 {
      DigitCharCode(a);
      DigitCharCode(b);
      assert sa[0] as int == 48 + a && sb[0] as int == 48 + b;
    } else if a < 10 {
      assert |sb| == |NatToString(b / 10)| + 1;
      assert |sa| != |sb|;
    } else if b < 10 {
      assert |sa| == |NatToString(a / 10)| + 1;
      assert |sa| != |sb|;
    } else {
      var pa := NatToString(a / 10);
      var pb := NatToString(b / 10);
      assert sa == pa + [DigitChar(a % 10)] && sb == pb + [DigitChar(b % 10)];
      assert sa[..|sa| - 1] == pa && sb[..|sb| - 1] == pb;
      NatToStringInjective(a / 10, b / 10);
      DigitCharCode(a % 10);
      DigitCharCode(b % 10);
      assert sa == sb <==> pa == pb && sa[|sa| - 1] == sb[|sb| - 1];
      assert a == 10 * (a / 10) + a % 10 && b == 10 * (b / 10) + b % 10;
    }
  }

  /** Distinct integers, signed, are written differently. */
  lemma {:induction false} IntToStringInjective(a: int, b: int)
    ensures IntToString(a) == IntToString(b) <==> a == b
  {
    var sa := IntToString(a);
    var sb := IntToString(b);
    if a < 0 && b < 0 {
      assert sa[1..] == NatToString(-a) && sb[1..] == NatToString(-b);
      NatToStringInjective(-a, -b);
      assert sa == sb <==> sa[1..] == sb[1..];
    } else if a < 0 {
      assert sa[0] == '-' && sb[0] != '-';
    } else if b < 0 {
      assert sb[0] == '-' && sa[0] != '-';
    } else {
      NatToStringInjective(a, b);
    }
  }

  /** A spelling followed by a written octave splits in one way only. */
  lemma SplitSpelled(x: string, i: string, y: string, j: string)
    requires IsSpelling(x) && IsSpelling(y)
    requires |i| > 0 && IsNumeral(i[0]) && |j| > 0 && IsNumeral(j[0])
    ensures x + i == y + j <==> x == y && i == j
  {
    if |x| < |y| {
      assert (x + i)[1] != (y + j)[1];
    } else if |y| < |x| {
      assert (x + i)[1] != (y + j)[1];
    } else {
      assert x + i == y + j ==> x == (x + i)[..|x|] == (y + j)[..|y|] == y;
      assert x + i == y + j ==> i == (x + i)[|x|..] == (y + j)[|y|..] == j;
    }
  }

  /** A non-rest note written as its spelling and octave, in either table,
      names exactly one MIDI number. */
  lemma {:induction false} SpelledNameInjective(names: seq<string>, a: int, b: int)
    requires names == IdentifierNames || names == DisplayNames
    requires a != 0 && b != 0
    ensures names[PitchClass(a)] + IntToString(Octave(a)) == names[PitchClass(b)] + IntToString(Octave(b))
        <==> a == b
  {
    var pa := PitchClass(a);
    var pb := PitchClass(b);
    SpellingsAreSpellings(pa);
    SpellingsAreSpellings(pb);
    SplitSpelled(names[pa], IntToString(Octave(a)), names[pb], IntToString(Octave(b)));
    SpellingClass(pa);
    SpellingClass(pb);
    IntToStringInjective(Octave(a), Octave(b));
    assert names[pa] == names[pb] <==> pa == pb;
    assert MidiToPitch(a) == Tone(pa, Octave(a)) && MidiToPitch(b) == Tone(pb, Octave(b));
    assert PitchCode(MidiToPitch(a)) == a && PitchCode(MidiToPitch(b)) == b;
  }

  /** A common prefix does not tell two strings apart. */
  lemma PrefixCancel(p: string, s: string, t: string)
    ensures p + s == p + t <==> s == t
  {
    assert p + s == p + t ==> (p + s)[|p|..] == s && (p + t)[|p|..] == t;
  }

  lemma NoteNameShape(n: int)
    requires n != 0
    ensures MidiToNoteName(n) == "NOTE_" + (IdentifierNames[PitchClass(n)] + IntToString(Octave(n)))
  {
  }

  /** Every `NOTE_xxx` name the converter writes stands for one MIDI number. */
  lemma {:induction false} NoteNameInjective(a: int, b: int)
    ensures MidiToNoteName(a) == MidiToNoteName(b) <==> a == b
  {
    if a != 0 && b != 0 {
      NoteNameShape(a);
      NoteNameShape(b);
      PrefixCancel("NOTE_", IdentifierNames[PitchClass(a)] + IntToString(Octave(a)),
                   IdentifierNames[PitchClass(b)] + IntToString(Octave(b)));
      SpelledNameInjective(IdentifierNames, a, b);
    }
  }

  /** Every readable name the converter writes stands for one MIDI number. */
  lemma {:induction false} NoteStringInjective(a: int, b: int)
    ensures NoteToString(a) == NoteToString(b) <==> a == b
  {
    if a != 0 && b != 0 {
      SpelledNameInjective(DisplayNames, a, b);
    }
  }

  /** Replaces every `#` by `S`. */
  function SharpsAsS(s: string): (r: string)
    ensures |r| == |s|
    ensures forall i | 0 <= i < |s| :: r[i] == (if s[i] == '#' then 'S' else s[i])
  {
    seq(|s|, i requires 0 <= i < |s| => if s[i] == '#' then 'S' else s[i])
  }

  /** Each readable pitch-class name becomes its identifier spelling. */
  lemma SharpsOfDisplayName(pc: int)
    requires 0 <= pc < 12
    ensures SharpsAsS(DisplayNames[pc]) == IdentifierNames[pc]
  {
    if pc < 6 {
      if pc == 1 { assert SharpsAsS("C#") == "CS"; }
      else if pc == 3 { assert SharpsAsS("D#") == "DS"; }
    } else {
      if pc == 6 { assert SharpsAsS("F#") == "FS"; }
      else if pc == 8 { assert SharpsAsS("G#") == "GS"; }
      else if pc == 10 { assert SharpsAsS("A#") == "AS"; }
    }
  }

  /** Replacing sharps works piece by piece. */
  lemma SharpsAsSConcat(a: string, b: string)
    ensures SharpsAsS(a + b) == SharpsAsS(a) + SharpsAsS(b)
  {
  }

  /** The two names agree on pitch class and octave: the identifier is the
      readable name with `NOTE_` in front and `S` for every `#`. */
  lemma {:induction false} NamesAgree(n: int)
    ensures MidiToNoteName(n) == "NOTE_" + SharpsAsS(NoteToString(n))
  {
    if n != 0 {
      var pc := PitchClass(n);
      var name := DisplayNames[pc];
      var oct := IntToString(Octave(n));
      SharpsOfDisplayName(pc);
      assert SharpsAsS(oct) == oct;
      SharpsAsSConcat(name, oct);
    } else {
      assert SharpsAsS("REST") == "REST";
    }
  }

  /** Middle C is `NOTE_C4` and the first note of the melody band is `NOTE_C5`. */
  lemma NoteNameExamples()
    ensures MidiToNoteName(60) == "NOTE_C4" && NoteToString(60) == "C4"
    ensures MidiToNoteName(72) == "NOTE_C5" && NoteToString(72) == "C5"
    ensures MidiToNoteName(0) == "NOTE_REST" && NoteToString(0) == "REST"
  {
    assert Octave(60) == 4 && PitchClass(60) == 0 && IntToString(4) == "4";
    assert Octave(72) == 5 && PitchClass(72) == 0 && IntToString(5) == "5";
  }

  /** Sharps, and the octave -1 that Python's floor division gives note 1. */
  lemma SharpNameExamples()
    ensures MidiToNoteName(61) == "NOTE_CS4" && NoteToString(61) == "C#4"
    ensures MidiToNoteName(1) == "NOTE_CS-1" && NoteToString(1) == "C#-1"
  {
    assert Octave(61) == 4 && PitchClass(61) == 1 && IntToString(4) == "4";
    assert Octave(1) == -1 && PitchClass(1) == 1 && IntToString(-1) == "-1";
  }
}

=== FILE: note_pairing.dfy ===
/** The note-pairing loop of `parse_midi_file`: every track is read message by
    message, a note-on opens a `(note, channel)` key, and a matching note-off
    (or note-on with velocity 0) closes it and emits a note. Time is one
    abstract integer unit throughout; the tick-to-second conversion is not part
    of this model. */
module NotePairing {

  import opened Wrappers

  /** The messages the loop tells apart; `delta` is the message's delta time. */
  datatype MidiMsg =
    | NoteOn(note: int, velocity: int, channel: int, delta: nat)
    | NoteOff(note: int, velocity: int, channel: int, delta: nat)
    | SetTempo(tempo: nat, delta: nat)
    | OtherMsg(delta: nat)

  /** `MidiNote`: a closed note with its start and end time. */
  datatype MidiNote = MidiNote(note: int, startMs: int, endMs: int, velocity: int, channel: int)

  /** `duration_ms`. */
  function DurationMs(n: MidiNote): int {
    n.endMs - n.startMs
  }

  /** The value `active_notes` keeps for an open key. */
  datatype OpenNote = OpenNote(start: int, velocity: int, channel: int)

  /** The loop's state: the accumulated time of the current track, its open
      keys, the notes emitted so far (over all tracks) and the tempo read last. */
  datatype PairState = PairState(time: int, active: map<(int, int), OpenNote>, emitted: seq<MidiNote>, tempoBpm: int)

  predicate StartsNote(m: MidiMsg) {
    m.NoteOn? && m.velocity > 0
  }

  predicate EndsNote(m: MidiMsg) {
    m.NoteOff? || (m.NoteOn? && m.velocity == 0)
  }

  function KeyOf(m: MidiMsg): (int, int)
    requires m.NoteOn? || m.NoteOff?
  {
    (m.note, m.channel)
  }

  /** One iteration of the message loop. A `set_tempo` of 0 divides by zero,
      which makes the whole parse fail (`None`). */
  function Step(st: PairState, m: MidiMsg): (r: Option<PairState>)
    ensures r.None? <==> m.SetTempo? && m.tempo == 0
    ensures r.Some? ==> r.value.time == st.time + m.delta
    ensures r.Some? && !m.SetTempo? ==> r.value.tempoBpm == st.tempoBpm
    ensures r.Some? && !StartsNote(m) ==> r.value.active.Keys <= st.active.Keys
    ensures r.Some? && !StartsNote(m) && !EndsNote(m) ==> r.value.active == st.active && r.value.emitted == st.emitted
  {
    var t := st.time + m.delta;
    if m.SetTempo? then
      if m.tempo == 0 then None else Some(st.(time := t, tempoBpm := 60000000 / m.tempo))
    else if StartsNote(m) then
      Some(st.(time := t, active := st.active[KeyOf(m) := OpenNote(t, m.velocity, m.channel)]))
    else if EndsNote(m) && KeyOf(m) in st.active then
      var o := st.active[KeyOf(m)];
      Some(st.(time := t, active := st.active - {KeyOf(m)},
               emitted := st.emitted + [MidiNote(m.note, o.start, t, o.velocity, o.channel)]))
    else
      Some(st.(time := t))
  }

  /** The message loop over one track. */
  function RunTrack(st: PairState, msgs: seq<MidiMsg>): Option<PairState>
    decreases |msgs|
  {
    if |msgs| == 0 then Some(st)
    else
      match Step(st, msgs[0])
      case None => None
      case Some(st') => RunTrack(st', msgs[1..])
  }

  /** The loop over all tracks: time and open keys restart with every track,
      emitted notes and the tempo carry over. The tempo starts at 120 BPM. */
  function RunTracks(st: PairState, tracks: seq<seq<MidiMsg>>): Option<PairState>
    decreases |tracks|
  {
    if |tracks| == 0 then Some(st)
    else
      match RunTrack(st.(time := 0, active := map[]), tracks[0])
      case None => None
      case Some(st') => RunTracks(st', tracks[1..])
  }

  /** `parse_midi_file` up to the distribution: the notes and the tempo, or
      `None` when the parse raises. Besides a `set_tempo` of 0, it raises when
      the first track has no messages: the time of the last message is read
      after each track's loop, and that loop never bound it. */
  function ParseTracks(tracks: seq<seq<MidiMsg>>): (r: Option<PairState>)
    ensures |tracks| > 0 && |tracks[0]| == 0 ==> r == None
    ensures r.Some? ==> forall n | n in r.value.emitted :: 0 <= n.startMs <= n.endMs
  {
    if |tracks| > 0 && |tracks[0]| == 0 then None
    else
      var init := PairState(0, map[], [], 120);
      var r := RunTracks(init, tracks);
      assert r.Some? ==> WellTimed(r.value) by {
        if r.Some? {
          RunTracksWellTimed(init, tracks);
        }
      }
      r
  }

  /** What the loop keeps true: time never goes below an open start, keys
      remember their own channel, and every emitted note ends no earlier than
      it starts, at a non-negative time. */
  ghost predicate WellTimed(st: PairState) {
    && st.time >= 0
    && (forall k | k in st.active :: 0 <= st.active[k].start <= st.time && st.active[k].channel == k.1)
    && (forall i | 0 <= i < |st.emitted| :: 0 <= st.emitted[i].startMs <= st.emitted[i].endMs)
  }

  /** A note is emitted exactly when a note-off, or a note-on with velocity 0,
      finds its `(note, channel)` key open; the note carries the key's note and
      channel, the open start time and the current time, and earlier notes stay. */
  lemma {:induction false} StepEmitsOnMatch(st: PairState, m: MidiMsg)
    requires Step(st, m).Some?
    ensures var st' := Step(st, m).value;
      && st'.time == st.time + m.delta
      && |st'.emitted| >= |st.emitted|
      && st'.emitted[..|st.emitted|] == st.emitted
      && (|st'.emitted| > |st.emitted| <==> EndsNote(m) && KeyOf(m) in st.active)
      && (|st'.emitted| > |st.emitted| ==>
            && |st'.emitted| == |st.emitted| + 1
            && var n := st'.emitted[|st.emitted|];
               && n.note == m.note && n.channel == st.active[KeyOf(m)].channel
               && n.startMs == st.active[KeyOf(m)].start && n.endMs == st'.time
               && KeyOf(m) !in st'.active)
  {
  }

  /** A note-off (or velocity-0 note-on) with no open key only advances time. */
  lemma {:induction false} UnmatchedEndIgnored(st: PairState, m: MidiMsg)
    requires EndsNote(m) && KeyOf(m) !in st.active
    ensures Step(st, m) == Some(st.(time := st.time + m.delta))
  {
  }

  /** A note-on for a key that is already open restarts it at the current time
      and leaves every other key and every emitted note alone. */
  lemma {:induction false} NoteOnOverwrites(st: PairState, m: MidiMsg)
    requires StartsNote(m)
    ensures Step(st, m).Some?
    ensures var st' := Step(st, m).value;
      && st'.active.Keys == st.active.Keys + {KeyOf(m)}
      && st'.active[KeyOf(m)] == OpenNote(st.time + m.delta, m.velocity, m.channel)
      && (forall k | k in st.active && k != KeyOf(m) :: st'.active[k] == st.active[k])
      && st'.emitted == st.emitted
  {
  }

  /** A `set_tempo` sets the tempo to `int(60000000 / tempo)`, and one with
      tempo 0 makes the parse fail. */
  lemma {:induction false} TempoMessage(st: PairState, tempo: nat, delta: nat)
    ensures Step(st, SetTempo(tempo, delta)).None? <==> tempo == 0
    ensures tempo > 0 ==> var t := Step(st, SetTempo(tempo, delta)).value.tempoBpm;
      t * tempo <= 60000000 < (t + 1) * tempo
  {
  }

  lemma {:induction false} StepWellTimed(st: PairState, m: MidiMsg)
    requires WellTimed(st)
    requires Step(st, m).Some?
    ensures WellTimed(Step(st, m).value)
  {
  }

  /** The invariant holds over a whole track, and the track only appends notes. */
  lemma {:induction false} RunTrackWellTimed(st: PairState, msgs: seq<MidiMsg>)
    requires WellTimed(st)
    requires RunTrack(st, msgs).Some?
    ensures WellTimed(RunTrack(st, msgs).value)
    ensures |RunTrack(st, msgs).value.emitted| >= |st.emitted|
    ensures RunTrack(st, msgs).value.emitted[..|st.emitted|] == st.emitted
    decreases |msgs|
  {
    if |msgs| > 0 {
      var st' := Step(st, msgs[0]).value;
      StepWellTimed(st, msgs[0]);
      StepEmitsOnMatch(st, msgs[0]);
      RunTrackWellTimed(st', msgs[1..]);
      var fin := RunTrack(st', msgs[1..]).value;
      assert fin.emitted[..|st.emitted|] == fin.emitted[..|st'.emitted|][..|st.emitted|];
    }
  }

  lemma {:induction false} RunTracksWellTimed(st: PairState, tracks: seq<seq<MidiMsg>>)
    requires WellTimed(st)
    requires RunTracks(st, tracks).Some?
    ensures WellTimed(RunTracks(st, tracks).value)
    decreases |tracks|
  {
    if |tracks| > 0 {
      var restart := st.(time := 0, active := map[]);
      RunTrackWellTimed(restart, tracks[0]);
      RunTracksWellTimed(RunTrack(restart, tracks[0]).value, tracks[1..]);
    }
  }

  /** Every note the parser emits starts at a non-negative time and ends no
      earlier than it starts, so its `duration_ms` is never negative. */
  lemma {:induction false} ParsedNotesWellTimed(tracks: seq<seq<MidiMsg>>)
    requires ParseTracks(tracks).Some?
    ensures forall n | n in ParseTracks(tracks).value.emitted :: 0 <= n.startMs <= n.endMs && DurationMs(n) >= 0
  {
  }

  /** An empty first track makes the parse fail even when a later track holds
      a whole note; an empty track after a non-empty one does not. */
  lemma EmptyTrackExamples()
    ensures ParseTracks([[], [NoteOn(60, 100, 0, 0), NoteOff(60, 0, 0, 10)]]) == None
    ensures var r := ParseTracks([[NoteOn(60, 100, 0, 0), NoteOff(60, 0, 0, 10)], []]);
      r.Some? && r.value.emitted == [MidiNote(60, 0, 10, 100, 0)]
  {
    var track := [NoteOn(60, 100, 0, 0), NoteOff(60, 0, 0, 10)];
    var init := PairState(0, map[], [], 120);
    var st1 := Step(init, track[0]).value;
    assert st1.active == map[(60, 0) := OpenNote(0, 100, 0)];
    var st2 := Step(st1, track[1]).value;
    assert st2.emitted == [MidiNote(60, 0, 10, 100, 0)];
    assert track[1..][1..] == [];
    assert RunTrack(init, track) == Some(st2);
    var restart := st2.(time := 0, active := map[]);
    assert RunTrack(restart, []) == Some(restart);
  }
}

=== FILE: orchestra_types.dfy ===
/** The record types shared by the conductor firmware and the generated song
    headers: a note event, a part (one instrument's event array) and a song. */
module OrchestraTypes {

  /** Range of a C `uint8_t`. */
  predicate IsUint8(x: int) {
    0 <= x < 0x100
  }

  /** Range of a C `uint16_t`. */
  predicate IsUint16(x: int) {
    0 <= x < 0x1_0000
  }

  /** The value an integer takes once stored in a `uint8_t` field: C keeps
      its residue modulo 256. */
  function Byte(x: int): (b: int)
    ensures IsUint8(b)
    ensures IsUint8(x) ==> b == x
    ensures (x - b) % 0x100 == 0
  {
    x % 0x100
  }

  /** A `NOTE_xxx` pitch: the rest, or a pitch class (0 = C .. 11 = B) in an octave.
      The numeric values of the `NOTE_xxx` constants are not part of this model;
      `PitchCode` gives the MIDI note number that the `note` byte stands for. */
  datatype Pitch = Rest | Tone(pitchClass: int, octave: int)

  /** The MIDI note number a pitch stands for: 0 is the rest, C4 is 60. */
  function PitchCode(p: Pitch): int {
    match p
    case Rest => 0
    case Tone(pc, oct) => 12 * (oct + 1) + pc
  }

  /** A pitch whose class is one of the twelve and whose note number is not the
      rest's 0 (MIDI note 0, C-1, cannot be played: 0 means rest). */
  predicate ValidPitch(p: Pitch) {
    p.Tone? ==> 0 <= p.pitchClass < 12 && PitchCode(p) != 0
  }

  /** `note_event_t`: the pitch, how long it sounds and the delay that goes with it. */
  datatype NoteEvent = NoteEvent(note: Pitch, durationMs: int, delayMs: int)

  /** `{NOTE_REST, 0, 0}`, the sentinel that closes every event array. */
  const Terminator := NoteEvent(Rest, 0, 0)

  /** Every field of the event fits its C field: a byte note, two 16-bit times. */
  predicate ValidEvent(e: NoteEvent) {
    && ValidPitch(e.note)
    && IsUint8(PitchCode(e.note))
    && IsUint16(e.durationMs)
    && IsUint16(e.delayMs)
  }

  /** `song_part_t`: `events` is the whole C array, terminator included. */
  datatype Part = Part(events: seq<NoteEvent>, eventCount: int, name: string)

  /** The array ends with the terminator and holds it nowhere else. */
  predicate Terminated(events: seq<NoteEvent>) {
    && |events| > 0
    && events[|events| - 1] == Terminator
    && Terminator !in events[..|events| - 1]
  }

  /** The value of `sizeof(a)/sizeof(note_event_t) - 1` for an array `a`
      (a C array always has at least one element). */
  function SizeofCount(events: seq<NoteEvent>): (n: nat)
    requires |events| > 0
    ensures n < |events|
  {
    |events| - 1
  }

  /** The `{array, sizeof(array)/sizeof(note_event_t) - 1, "Name"}` initializer. */
  function MakePart(events: seq<NoteEvent>, name: string): Part
    requires |events| > 0
  {
    Part(events, SizeofCount(events), name)
  }

  /** A part the firmware can walk either by `event_count` or up to the terminator. */
  predicate ValidPart(p: Part) {
    && Terminated(p.events)
    && p.eventCount == |p.events| - 1
    && IsUint16(p.eventCount)
    && forall e | e in p.events :: ValidEvent(e)
  }

  /** `orchestra_song_t`. */
  datatype Song = Song(name: string, id: int, tempoBpm: int, partCount: int, parts: seq<Part>)

  predicate ValidSong(s: Song) {
    && IsUint8(s.id)
    && IsUint8(s.tempoBpm)
    && IsUint8(s.partCount)
    && s.partCount == |s.parts|
    && forall p | p in s.parts :: ValidPart(p)
  }

  /** How many events a reader finds by walking the array up to the first
      `{NOTE_REST, 0, 0}` (or to its end, if there is none). */
  function ScanLength(events: seq<NoteEvent>): (n: nat)
    ensures n <= |events|
    ensures Terminator !in events[..n]
    ensures n < |events| ==> events[n] == Terminator
  {
    if |events| == 0 || events[0] == Terminator then 0
    else
      assert events[..1 + ScanLength(events[1..])] == [events[0]] + events[1..][..ScanLength(events[1..])];
      1 + ScanLength(events[1..])
  }

  /** Walking a terminated array to its sentinel counts every event but the sentinel. */
  lemma {:induction false} ScanOfTerminated(events: seq<NoteEvent>)
    requires Terminated(events)
    ensures ScanLength(events) == |events| - 1
  {
  }

  /** A part built with the `sizeof - 1` initializer from a terminated array of
      valid events is a valid part, whose count is what a scan to the sentinel finds. */
  lemma {:induction false} MakePartValid(events: seq<NoteEvent>, name: string)
    requires Terminated(events)
    requires |events| <= 0x1_0000
    requires forall e | e in events :: ValidEvent(e)
    ensures ValidPart(MakePart(events, name))
    ensures MakePart(events, name).eventCount == ScanLength(events)
    ensures MakePart(events, name).name == name
  {
    ScanOfTerminated(events);
  }

  /** In a valid part, the count and the sentinel agree. */
  lemma {:induction false} CountMatchesSentinel(p: Part)
    requires ValidPart(p)
    ensures ScanLength(p.events) == p.eventCount
    ensures p.events[p.eventCount] == Terminator
    ensures forall i | 0 <= i < p.eventCount :: p.events[i] != Terminator
  {
    ScanOfTerminated(p.events);
  }
}

=== FILE: safe_name.dfy ===
/** `_make_safe_name`: the converter turns a song's file name into the stem,
    made of identifier characters only, that prefixes every name it writes. A
    stem may start with a digit, so it is not always a C identifier on its own. */
module SafeName {

  import MidiSongs
  import OrchestraTypes

  predicate IsAlnum(c: char) {
    ('a' <= c <= 'z') || ('A' <= c <= 'Z') || ('0' <= c <= '9')
  }

  /** A character a C identifier may hold. */
  predicate IsIdentChar(c: char) {
    IsAlnum(c) || c == '_'
  }

  predicate IsIdentString(s: string) {
    forall c | c in s :: IsIdentChar(c)
  }

  /** The character loop of `_make_safe_name`: alphanumerics are kept, each of
      space, `-`, `_` and `.` becomes `_`, everything else is dropped. */
  function Sanitize(name: string): (r: string)
    ensures |r| <= |name|
    ensures IsIdentString(r)
  {
    if |name| == 0 then ""
    else
      var c := name[0];
      var head := if IsAlnum(c) then [c] else if c in " -_." then "_" else "";
      head + Sanitize(name[1..])
  }

  /** `str.lstrip("_")`. */
  function StripLeading(s: string): (r: string)
    ensures |r| <= |s| && r == s[|s| - |r|..]
    ensures forall i | 0 <= i < |s| - |r| :: s[i] == '_'
    ensures |r| == 0 || r[0] != '_'
  {
    if |s| > 0 && s[0] == '_' then
      var r := StripLeading(s[1..]);
      assert s[1..][|s| - 1 - |r|..] == s[|s| - |r|..];
      assert forall i | 1 <= i < |s| - |r| :: s[i] == s[1..][i - 1];
      r
    else s
  }

  /** `str.rstrip("_")`. */
  function StripTrailing(s: string): (r: string)
    ensures |r| <= |s| && r == s[..|r|]
    ensures forall i | |r| <= i < |s| :: s[i] == '_'
    ensures |r| == 0 || r[|r| - 1] != '_'
  {
    if |s| > 0 && s[|s| - 1] == '_' then StripTrailing(s[..|s| - 1]) else s
  }

  /** `str.strip("_")`: the result is the infix of `s` that starts `a` places
      in, where `a` is the length of the leading run of `_`; everything cut from
      either end is `_`, and no `_` is left at either end. */
  function Strip(s: string): (r: string)
    ensures var a := |s| - |StripLeading(s)|;
      && a + |r| <= |s|
      && (forall i | 0 <= i < |r| :: r[i] == s[a + i])
      && (forall i | 0 <= i < a :: s[i] == '_')
      && (forall i | a + |r| <= i < |s| :: s[i] == '_')
    ensures |r| == 0 || (r[0] != '_' && r[|r| - 1] != '_')
  {
    var t := StripLeading(s);
    StripLeadingIndices(s);
    StripTrailingIndices(t);
    StripTrailing(t)
  }

  /** `StripLeading` keeps a suffix of `s` and cuts only `_`, index by index. */
  lemma StripLeadingIndices(s: string)
    ensures var t := StripLeading(s);
      var a := |s| - |t|;
      && (forall i | 0 <= i < |t| :: t[i] == s[a + i])
      && (forall i | 0 <= i < a :: s[i] == '_')
  {
  }

  /** `StripTrailing` keeps a prefix of `t` and cuts only `_`, index by index. */
  lemma StripTrailingIndices(t: string)
    ensures var u := StripTrailing(t);
      && |u| <= |t|
      && (forall i | 0 <= i < |u| :: u[i] == t[i])
      && (forall i | |u| <= i < |t| :: t[i] == '_')
  {
  }

  /** Any infix of an identifier string is one. */
  lemma InfixIdent(s: string, i: nat, j: nat)
    requires i <= j <= |s|
    requires IsIdentString(s)
    ensures IsIdentString(s[i..j])
  {
    assert forall c | c in s[i..j] :: c in s;
  }

  /** `_make_safe_name`. */
  function MakeSafeName(name: string): (r: string)
    ensures IsIdentString(r)
    ensures |r| == 0 || (r[0] != '_' && r[|r| - 1] != '_')
    ensures |r| <= |name|
  {
    var s := Sanitize(name);
    var r := Strip(s);
    StripIdent(s);
    r
  }

  /** Stripping an identifier string leaves one. */
  lemma StripIdent(s: string)
    requires IsIdentString(s)
    ensures IsIdentString(Strip(s))
  {
    var r := Strip(s);
    var a := |s| - |StripLeading(s)|;
    forall c | c in r
      ensures IsIdentChar(c)
    {
      var i :| 0 <= i < |r| && r[i] == c;
      assert s[a + i] == c;
    }
  }

  /** Identifier characters pass the character loop unchanged. */
  lemma {:induction false} SanitizeIdentity(s: string)
    requires IsIdentString(s)
    ensures Sanitize(s) == s
  {
    if |s| > 0 {
      assert IsIdentString(s[1..]) by {
        assert forall i | 0 <= i < |s| - 1 :: s[1..][i] == s[i + 1];
      }
      SanitizeIdentity(s[1..]);
      assert s[0] in s;
      assert s == [s[0]] + s[1..];
    }
  }

  /** Stripping a string with no `_` at either end leaves it unchanged. */
  lemma {:induction false} StripIdentity(s: string)
    requires |s| == 0 || (s[0] != '_' && s[|s| - 1] != '_')
    ensures Strip(s) == s
  {
    var t := StripLeading(s);
    assert t == s;
    var r := StripTrailing(t);
    assert r == s;
    assert Strip(s) == r;
  }

  /** A string that starts and ends with a non-underscore is its own strip. */
  lemma {:induction false} StripFramed(first: string, middle: string, last: string)
    requires |first| == 1 && |last| == 1 && first[0] != '_' && last[0] != '_'
    ensures Strip(first + middle + last) == first + middle + last
  {
    StripIdentity(first + middle + last);
  }

  /** A safe name is its own safe name. */
  lemma {:induction false} SafeNameIdempotent(name: string)
    ensures MakeSafeName(MakeSafeName(name)) == MakeSafeName(name)
  {
    var r := MakeSafeName(name);
    SanitizeIdentity(r);
  }

  /** The string with every `_` removed. */
  function DropUnderscores(s: string): string {
    if |s| == 0 then "" else (if s[0] == '_' then "" else [s[0]]) + DropUnderscores(s[1..])
  }

  /** The alphanumeric characters of the string, in order. */
  function AlnumOnly(s: string): string {
    if |s| == 0 then "" else (if IsAlnum(s[0]) then [s[0]] else "") + AlnumOnly(s[1..])
  }

  lemma {:induction false} DropUnderscoresConcat(a: string, b: string)
    ensures DropUnderscores(a + b) == DropUnderscores(a) + DropUnderscores(b)
    decreases |a|
  {
    if |a| > 0 {
      assert (a + b)[1..] == a[1..] + b;
      DropUnderscoresConcat(a[1..], b);
    } else {
      assert a + b == b;
    }
  }

  lemma {:induction false} SanitizeKeepsAlnum(s: string)
    ensures DropUnderscores(Sanitize(s)) == AlnumOnly(s)
  {
    if |s| > 0 {
      var c := s[0];
      var head := if IsAlnum(c) then [c] else if c in " -_." then "_" else "";
      DropUnderscoresConcat(head, Sanitize(s[1..]));
      SanitizeKeepsAlnum(s[1..]);
    }
  }

  lemma {:induction false} DropUnderscoresOfStripLeading(s: string)
    ensures DropUnderscores(StripLeading(s)) == DropUnderscores(s)
  {
    if |s| > 0 && s[0] == '_' {
      DropUnderscoresOfStripLeading(s[1..]);
    }
  }

  lemma {:induction false} DropUnderscoresOfStripTrailing(s: string)
    ensures DropUnderscores(StripTrailing(s)) == DropUnderscores(s)
    decreases |s|
  {
    if |s| > 0 && s[|s| - 1] == '_' {
      var init := s[..|s| - 1];
      DropUnderscoresOfStripTrailing(init);
      assert s == init + "_";
      DropUnderscoresConcat(init, "_");
    }
  }

  /** Stripping removes underscores only. */
  lemma {:induction false} DropUnderscoresOfStrip(s: string)
    ensures DropUnderscores(Strip(s)) == DropUnderscores(s)
  {
    DropUnderscoresOfStripLeading(s);
    DropUnderscoresOfStripTrailing(StripLeading(s));
  }

  /** Nothing but underscores is ever added: removing them from the safe name
      leaves exactly the alphanumeric characters of the original, in order. */
  lemma {:induction false} SafeNameKeepsAlnum(name: string)
    ensures DropUnderscores(MakeSafeName(name)) == AlnumOnly(name)
  {
    DropUnderscoresOfStrip(Sanitize(name));
    SanitizeKeepsAlnum(name);
  }

  lemma {:induction false} SanitizeConcat(a: string, b: string)
    ensures Sanitize(a + b) == Sanitize(a) + Sanitize(b)
    decreases |a|
  {
    if |a| > 0 {
      assert (a + b)[1..] == a[1..] + b;
      SanitizeConcat(a[1..], b);
    } else {
      assert a + b == b;
    }
  }

  lemma SanitizeJoin4(a: string, b: string, c: string, d: string)
    ensures Sanitize(a + b + c + d) == Sanitize(a) + Sanitize(b) + Sanitize(c) + Sanitize(d)
  {
    SanitizeConcat(a + b + c, d);
    SanitizeConcat(a + b, c);
    SanitizeConcat(a, b);
  }

  /** The Titanic theme's title, as `all_songs` spells it. */
  const TitanicTitle := MidiSongs.TitanicTitle

  // The evaluation of `_make_safe_name` on that title, one piece at a time.

  lemma TitlePrefix()
    ensures TitanicTitle[..28] == "Movie_Themes_-_Titanic_-_My_"
  {
  }

  lemma TitleSuffix()
    ensures TitanicTitle[28..] == "Heart_Will_Go_On_(Techno_Mix)"
  {
  }

  lemma TitleSplits()
    ensures TitanicTitle == "Movie_Themes_-_Titanic_-_My_" + "Heart_Will_Go_On_(Techno_Mix)"
  {
    TitlePrefix();
    TitleSuffix();
    assert TitanicTitle == TitanicTitle[..28] + TitanicTitle[28..];
  }

  lemma FirstHalfSplits()
    ensures "Movie_Themes_-_Titanic_-_My_" == "Movie_Themes_" + "-" + "_Titanic_" + "-_My_"
  {
  }

  lemma SecondHalfSplits()
    ensures "Heart_Will_Go_On_(Techno_Mix)" == "Heart_Will_Go_On_" + "(" + "Techno_Mix" + ")"
  {
  }

  lemma FirstPiecesJoin()
    ensures "Movie_Themes_" + "_" + "_Titanic_" + ("_" + "_My_") == "Movie_Themes___Titanic___My_"
  {
  }

  lemma SecondPiecesJoin()
    ensures "Heart_Will_Go_On_" + "" + "Techno_Mix" + "" == "Heart_Will_Go_On_Techno_Mix"
  {
  }

  lemma HalvesJoin()
    ensures "Movie_Themes___Titanic___My_" + "Heart_Will_Go_On_Techno_Mix"
         == "Movie_Themes___Titanic___My_Heart_Will_Go_On_Techno_Mix"
  {
  }

  lemma MoviePiece()
    ensures Sanitize("Movie_Themes_") == "Movie_Themes_"
  {
    assert IsIdentString("Movie_Themes_");
    SanitizeIdentity("Movie_Themes_");
  }

  lemma TitanicPiece()
    ensures Sanitize("_Titanic_") == "_Titanic_"
  {
    assert IsIdentString("_Titanic_");
    SanitizeIdentity("_Titanic_");
  }

  lemma MyPiece()
    ensures Sanitize("_My_") == "_My_"
  {
    assert IsIdentString("_My_");
    SanitizeIdentity("_My_");
  }

  lemma HeartPiece()
    ensures Sanitize("Heart_Will_Go_On_") == "Heart_Will_Go_On_"
  {
    assert IsIdentString("Heart_Will_Go_On_");
    SanitizeIdentity("Heart_Will_Go_On_");
  }

  lemma TechnoPiece()
    ensures Sanitize("Techno_Mix") == "Techno_Mix"
  {
    assert IsIdentString("Techno_Mix");
    SanitizeIdentity("Techno_Mix");
  }

  lemma DashPiece()
    ensures Sanitize("-") == "_"
  {
  }

  lemma ParenPieces()
    ensures Sanitize("(") == "" && Sanitize(")") == ""
  {
  }

  lemma DashMyPiece()
    ensures Sanitize("-_My_") == "_" + "_My_"
  {
    assert "-_My_" == "-" + "_My_";
    SanitizeConcat("-", "_My_");
    DashPiece();
    MyPiece();
  }

  lemma SanitizeTitle()
    ensures Sanitize(TitanicTitle) == "Movie_Themes___Titanic___My_Heart_Will_Go_On_Techno_Mix"
  {
    TitleSplits();
    FirstHalfSplits();
    SecondHalfSplits();
    FirstPiecesJoin();
    SecondPiecesJoin();
    HalvesJoin();
    MoviePiece();
    TitanicPiece();
    HeartPiece();
    TechnoPiece();
    DashPiece();
    ParenPieces();
    DashMyPiece();
    SanitizeJoin4("Movie_Themes_", "-", "_Titanic_", "-_My_");
    SanitizeJoin4("Heart_Will_Go_On_", "(", "Techno_Mix", ")");
    SanitizeConcat("Movie_Themes_-_Titanic_-_My_", "Heart_Will_Go_On_(Techno_Mix)");
  }

  lemma {:induction false} Reframe(a: string, b: string, first: string, a': string, b': string, last: string)
    requires a == first + a' && b == b' + last
    ensures a + b == first + (a' + b') + last
  {
  }

  lemma SafeNameHalves()
    ensures "Movie_Themes___Titanic___My_Heart_Will_Go_On_Techno_Mix"
         == "Movie_Themes___Titanic___My_" + "Heart_Will_Go_On_Techno_Mix"
  {
  }

  lemma FirstHalfFrame()
    ensures "Movie_Themes___Titanic___My_" == "M" + "ovie_Themes___Titanic___My_"
  {
  }

  lemma SecondHalfFrame()
    ensures "Heart_Will_Go_On_Techno_Mix" == "Heart_Will_Go_On_Techno_Mi" + "x"
  {
  }

  lemma SafeTitleFramed()
    ensures "Movie_Themes___Titanic___My_Heart_Will_Go_On_Techno_Mix"
         == "M" + ("ovie_Themes___Titanic___My_" + "Heart_Will_Go_On_Techno_Mi") + "x"
  {
    SafeNameHalves();
    FirstHalfFrame();
    SecondHalfFrame();
    Reframe("Movie_Themes___Titanic___My_", "Heart_Will_Go_On_Techno_Mix",
            "M", "ovie_Themes___Titanic___My_", "Heart_Will_Go_On_Techno_Mi", "x");
  }

  lemma {:induction false} SafeNameOfFramed(name: string, first: string, middle: string, last: string)
    requires |first| == 1 && |last| == 1 && first[0] != '_' && last[0] != '_'
    requires Sanitize(name) == first + middle + last
    ensures MakeSafeName(name) == first + middle + last
  {
    StripFramed(first, middle, last);
  }

  lemma SafeTitle()
    ensures MakeSafeName(TitanicTitle) == "Movie_Themes___Titanic___My_Heart_Will_Go_On_Techno_Mix"
  {
    SanitizeTitle();
    SafeTitleFramed();
    SafeNameOfFramed(TitanicTitle, "M", "ovie_Themes___Titanic___My_" + "Heart_Will_Go_On_Techno_Mi", "x");
  }

  lemma PartsArrayName()
    ensures "Movie_Themes___Titanic___My_Heart_Will_Go_On_Techno_Mix" + "_parts"
         == "Movie_Themes___Titanic___My_Heart_Will_Go_On_Techno_Mix_parts"
  {
    assert "Movie_Themes___Titanic___My_Heart_Will_Go_On_Techno_Mix"
        == "Movie_Themes___Titanic___My_" + "Heart_Will_Go_On_Techno_Mix";
    assert "Movie_Themes___Titanic___My_Heart_Will_Go_On_Techno_Mix_parts"
        == "Movie_Themes___Titanic___My_" + "Heart_Will_Go_On_Techno_Mix_parts";
  }

  /** The registry's fifth title becomes exactly the identifier the registry
      uses for that song's parts array, `<safe name>_parts`. */
  lemma {:induction false} TitanicSafeName(ids: MidiSongs.SongIds, thailandParts: seq<OrchestraTypes.Part>, titanicParts: seq<OrchestraTypes.Part>)
    ensures MidiSongs.AllSongs(ids, thailandParts, titanicParts)[4].name == TitanicTitle
    ensures MakeSafeName(TitanicTitle) == "Movie_Themes___Titanic___My_Heart_Will_Go_On_Techno_Mix"
    ensures MakeSafeName(TitanicTitle) + "_parts" == "Movie_Themes___Titanic___My_Heart_Will_Go_On_Techno_Mix_parts"
  {
    SafeTitle();
    PartsArrayName();
  }
}

=== FILE: wrappers.dfy ===
/** The absent-or-present result used wherever the firmware returns NULL or the
    converter gives up. */
module Wrappers {

  datatype Option<+T> = None | Some(value: T)
}
